=== FILE: README.md ===
# syslogviewer log streaming, modelled in Dafny

syslogviewer is a small Flask and Socket.IO server that lets a logged-in viewer
browse the files of `/var/log`, group them into virtual folders, and follow one
file live. This project models the logic of `app.py`, and the central part is the
live-follow machinery:

- **Backlog snapshot.** When a viewer joins a file's room, `send_last_lines`
  scans the file backwards in 4096-character steps. It stops once the window
  holds more than `n` lines or reaches the start of the file. Then it emits the
  window's last `n` lines, each with `"\n"` appended (module `Snapshot`).
- **Tail read cursor.** The background thread `tail_file_background` starts at
  end of file and repeatedly calls `readline`. It emits whatever that returns:
  a complete line, or the partial remainder at end of file (module `Tail`).
- **Thread registry.** The `tail_threads` dictionary is guarded by
  `thread_lock`. `on_join`, `on_leave`, the thread's loop check and its
  `finally` block update it. Each locked block is one atomic step of a state
  machine (module `Registry`). The same steps form the class
  `Server.LogServer`, whose methods update its fields in place and are proved to
  produce exactly the state machine's next state. Module `Lifecycle` shows two
  defects of the code as written, with single-step lemmas and concrete runs. It
  also gives corrected versions of the two steps involved, and proves that every
  run of the corrected system keeps each room's entry with its current thread.
- **Helpers:**
  - `_sanitize_filename` (module `Paths`);
  - `list_log_files` and the `/logs/list` grouping (module `Listing`);
  - the folder create, delete and move handlers (module `Folders`);
  - the `load_auth` `KEY=VALUE` parser (module `Auth`).

Files, directory listings, the folder JSON store and the auth file are
parameters. Everything a handler emits is appended to an output sequence of
`Event`s (module `Events`).

Points of `app.py`'s behaviour worth knowing, all modelled as written:

- The scan moves its start back by a fixed 4096 each time. The window does not
  double.
- `[-0:]` keeps the whole window, so a backlog of `n = 0` lines sends every line
  of the first window.
- A partial line at end of file is emitted at once. Its rest arrives later as a
  separate chunk.
- In the backlog, a last line without a final break is sent with a `"\n"` the
  file does not have.
- The backlog is emitted to the whole room, not only to the joining viewer.
- A thread record has no generation token. A thread finds "its" record by room
  name only.
- `on_join` does not validate the file name.
- Lines appended between the backlog read and the new thread opening the file
  are never emitted. The thread seeks to the end of file when it opens.

## Model

| member | source | states |
|---|---|---|
| Wrappers.Get | app.py:120 | `dict.get`: present exactly when the key is in the map, with the stored value |
| Lines.SplitLines | app.py:107 | the list of lines is empty exactly when the text is |
| Lines.LinesHaveNoBreak | app.py:107 | no line of the split contains a line break |
| Lines.SplitJoin | app.py:107-109 | splitting lines written out with their breaks gives back the same lines |
| Lines.JoinSplit | app.py:107-109 | text that is empty or ends with a break is rebuilt exactly from its lines and breaks |
| Lines.JoinSplitPartial | app.py:107-109 | text whose last line has no final break is rebuilt from its lines and breaks with exactly one `"\n"` added at the end |
| Lines.WindowLines | app.py:103-107 | apart from its first, possibly cut, line, a window starting anywhere holds the last lines of the whole text |
| Lines.WindowLastLines | app.py:103-107 | once a window holds more than `n >= 1` lines, its last `n` lines are the last `n` lines of the file |
| Snapshot.LastSlice | app.py:107 | `xs[-n:]`: the whole list for `n == 0` or `n >= len`, otherwise exactly the last `n` elements |
| Snapshot.FirstWindow | app.py:101-104 | the first window's start lies within the file, strictly before a non-empty file's end (its value, one block before the end or 0, is the definition itself) |
| Snapshot.Backlog | app.py:103-107 | the scan's lines: at most `n` of them for `n >= 1`, and none exactly when the file is empty |
| Snapshot.LineEvents | app.py:108-109 | one `log_line` per backlog line, in order, each carrying the line plus `"\n"` |
| Snapshot.SnapshotEvents | app.py:103-111 | every event is addressed to the file's room, and nothing at all is emitted exactly when the file opens and is empty |
| Snapshot.SendLastLines | app.py:95-111 | the backward scan terminates (its start offset decreases) and emits exactly the backlog events, or one `log_error` when the file cannot be opened |
| Snapshot.BacklogOfWindow | app.py:103-107 | wherever the scan stops, `[-n:]` of that window's lines is the backlog, whatever window size it stopped at |
| Snapshot.BacklogIsLastLines | app.py:103-109 | for `n >= 1` the backlog has `min(n, total)` lines and they are the file's last lines, in order |
| Snapshot.ShortFileIsReproduced | app.py:103-109 | a file of at most `n` complete lines is reproduced exactly by the emitted backlog |
| Snapshot.ShortPartialFileGainsBreak | app.py:103-109 | a file of at most `n` lines whose last line is unterminated comes back from the backlog with one `"\n"` appended |
| Snapshot.EventTextsJoin | app.py:108-109 | the emitted texts, concatenated, are the backlog lines each followed by `"\n"` |
| Tail.ReadLine | app.py:123 | `readline`: empty at end of file; otherwise the text at the cursor through the first `"\n"`, or the partial rest of the file |
| Tail.ReadExtends | app.py:117-127 | after a read, the emitted chunks concatenated equal the file between the start offset and the advanced cursor |
| Tail.AppendKeepsRead | app.py:123 | appending to the file leaves the text already read unchanged |
| Tail.CompleteLineStable | app.py:123 | a line read complete reads the same after more text is appended |
| Tail.PartialLineIsSplit | app.py:123-127 | example: `abc` is read at once, and after `def\n` is appended the next read gives `def\n`, so the line arrives in two chunks (the general fact is `Tail.ReadLine`'s end-of-file clause) |
| Registry.Init | app.py:22-23 | server start: empty `tail_threads`, no threads, no events; the registry invariant and the ownership rule hold |
| Registry.RoomRunning | app.py:120-121 | the as-written loop condition: when it holds, the room's stored record belongs to a thread tailing that room |
| Registry.OnJoin | app.py:255-273 | an empty name changes nothing. Otherwise: emits `joined` then the backlog; stops the room's previous record; installs a fresh unstopped record with a new thread; leaves other rooms and records as they were |
| Registry.OnLeave | app.py:276-285 | stops the room's current record if there is one; nothing else changes |
| Registry.WorkerOpen | app.py:113-117 | the thread opens its file with the cursor at end of file; a missing file emits `log_error` and goes to cleanup |
| Registry.WorkerCheck | app.py:119-122 | as written: the thread goes on exactly when a record is stored under its room name and that record is not stopped |
| Registry.WorkerRead | app.py:123-127 | one `readline`: a non-empty result is emitted and advances the cursor by its length; an empty one emits nothing; the thread's room and start offset stay, as do all other threads; the emitted chunks stay equal to the file between start and cursor |
| Registry.WorkerCleanup | app.py:130-134 | as written: removes the room's entry whichever thread installed it; the thread ends |
| Server.LogServer.constructor | app.py:22-23 | the object starts in the state `Registry.Init` describes |
| Server.LogServer.OnJoin | app.py:255-273 | updates the fields in place to exactly `Registry.OnJoin`'s new state, running the backlog scan method |
| Server.LogServer.OnLeave | app.py:276-285 | updates the fields to exactly `Registry.OnLeave`'s new state |
| Server.LogServer.WorkerOpen | app.py:113-117 | updates the fields to exactly `Registry.WorkerOpen`'s new state |
| Server.LogServer.WorkerCheck | app.py:119-122 | updates the fields to exactly `Registry.WorkerCheck`'s new state; returns whether the loop goes on |
| Server.LogServer.WorkerRead | app.py:123-127 | returns what `readline` returns and updates the fields to exactly `Registry.WorkerRead`'s new state |
| Server.LogServer.WorkerCleanup | app.py:130-134 | updates the fields to exactly `Registry.WorkerCleanup`'s new state |
| Lifecycle.LeaveStopsRoom | app.py:282-285 | after `on_leave`, a thread of that room leaves its loop at its next check |
| Lifecycle.ReplacedWorkerContinues | app.py:264-270 | after a second join, the old thread's own record is stopped, yet it passes its next check |
| Lifecycle.ReplacedWorkerDuplicatesLines | app.py:119-122 | concrete run: after two joins of `app.log` both threads pass their check at the same cursor, the replaced one although its record is stopped |
| Lifecycle.SameCursorSameLine | app.py:123-127 | two reading threads of one file at the same cursor each emit the appended line, so it reaches the room twice |
| Lifecycle.DuplicatedLine | app.py:119-127 | with two reading threads on an empty `app.log`, appending `hello\n` emits two `log_line` events with `hello\n` |
| Lifecycle.DoubleJoinEmitsLineTwice | app.py:119-127 | the whole run: two joins of `app.log`, both threads open and check, `hello\n` is appended, and the room receives two `log_line` events with it |
| Lifecycle.CleanupDropsNewerEntry | app.py:132-134 | concrete run: leave and rejoin. The old thread's cleanup removes the new record, the ownership rule breaks, and the new thread, never stopped, exits |
| Lifecycle.WorkerCheckOwn | app.py:119-122 | corrected check: the thread goes on exactly when the room's stored record is its own and not stopped, and exits otherwise; nothing else changes |
| Lifecycle.WorkerCleanupOwn | app.py:132-134 | corrected cleanup: removes the room's entry only when it is the thread's own; all other entries stay |
| Lifecycle.OneUnstoppedThreadPerRoom | app.py:264-273 | under the ownership rule, a room has at most one live thread whose record is not stopped |
| Lifecycle.JoinKeepsOwned | app.py:264-273 | `on_join` keeps the ownership rule |
| Lifecycle.LeaveKeepsOwned | app.py:282-285 | `on_leave` keeps the ownership rule |
| Lifecycle.CheckOwnKeepsOwned | app.py:119-122 | the corrected check keeps the ownership rule |
| Lifecycle.CleanupOwnKeepsOwned | app.py:132-134 | the corrected cleanup keeps the ownership rule |
| Lifecycle.StepOwnKeepsOwned | app.py:113-134 | every step of the corrected system keeps the ownership rule |
| Lifecycle.RunOwnKeepsOwned | app.py:113-134 | every schedule of the corrected system keeps the ownership rule |
| Lifecycle.OwnCheckAdmitsOnlyOwner | app.py:119-122 | with the corrected check, a thread that goes on is unstopped, and every other live thread of its room is stopped |
| Lifecycle.RejoinSurvivesOwnCleanup | app.py:132-134 | the leave and rejoin run with the corrected steps: the new record survives and the new thread goes on |
| Lifecycle.ReplacedWorkerExitsWithOwnCheck | app.py:119-122 | the double join run with the corrected check: the replaced thread exits |
| Paths.Basename | app.py:85 | `os.path.basename`: the suffix of the path after its last `"/"` (the whole path when there is none) |
| Paths.BasenameIsSelf | app.py:85 | a path equals its basename exactly when it contains no `"/"` |
| Paths.Ext | app.py:87 | `os.path.splitext` extension: from the basename's last `"."` to the end, non-empty exactly when the basename has a `"."` with a character other than `"."` before it (leading dots belong to the root) |
| Paths.Sanitize | app.py:83-90 | returns the name unchanged or `None`; it accepts exactly names without `"/"` whose extension is `".log"` or `""` |
| Paths.SanitizeIdempotent | app.py:83-90 | re-checking an accepted name accepts it again, unchanged |
| Paths.AcceptedNameShape | app.py:83-90 | an accepted name has no `"/"` and its extension is `".log"` or `""` |
| Paths.PlainLogAccepted | app.py:83-90 | `app.log` is accepted |
| Paths.RotatedLogRefused | app.py:83-90 | `app.log.1` is refused (its extension is `.1`) |
| Paths.NestedNameRefused | app.py:83-90 | `nginx/access.log` is refused |
| Paths.DotsAccepted | app.py:83-90 | `..` is accepted, since a dot-only name has no extension |
| Listing.LessEqTotal | app.py:59 | the order on names is total |
| Listing.LessEqTrans | app.py:59 | the order on names is transitive |
| Listing.Insert | app.py:59 | inserting into a sorted list keeps it sorted and adds exactly one copy |
| Listing.Sort | app.py:59 | `list.sort()`: sorted and a permutation of its input |
| Listing.EligibleEntries | app.py:51-56 | the filter over the directory listing never yields more entries than the listing has |
| Listing.EligibleEntriesKept | app.py:52-57 | keeps exactly the regular files with an allowed extension, with their multiplicities |
| Listing.ListLogFiles | app.py:48-60 | the result is sorted and is a permutation of the eligible entries; a listing error gives an empty list |
| Listing.KeepListed | app.py:171 | the pruning filter never yields more names than the folder has |
| Listing.KeepListedKept | app.py:171 | a folder keeps exactly its names that are listed files, with their multiplicities |
| Listing.KeepListedAppend | app.py:171 | the filter keeps the folder's own order: filtering a concatenation is the concatenation of the filtered parts |
| Listing.NotAssigned | app.py:176 | the unsorted filter never yields more files than the listing has |
| Listing.NotAssignedKept | app.py:176 | keeps exactly the files not assigned to a folder, with their multiplicities |
| Listing.NotAssignedAppend | app.py:176 | the filter keeps listing order: filtering a concatenation is the concatenation of the filtered parts |
| Listing.NotAssignedSorted | app.py:176 | filtering a sorted listing leaves it sorted |
| Listing.Assigned | app.py:173-175 | a name is assigned exactly when some folder holds it |
| Listing.LogsList | app.py:166-177 | the `/logs/list` response keeps every folder, no folder grows, and `unsorted` is no longer than the listing |
| Listing.PrunedFoldersListed | app.py:170-171 | pruning keeps every folder and, in each, exactly its names that are listed files |
| Listing.UnsortedAreUnassigned | app.py:173-176 | a listed file is unsorted exactly when no folder names it, and every listed file is unsorted or in some pruned folder |
| Listing.UnsortedStaysSorted | app.py:166-176 | with the sorted listing `list_log_files` returns, `unsorted` is sorted too |
| Folders.RemoveFirst | app.py:233 | `list.remove`: one occurrence fewer when present, nothing changes when absent |
| Folders.RemoveFirstSplices | app.py:233 | the first occurrence is the one removed; the rest stays in order |
| Folders.Create | app.py:193-202 | refuses empty names and names with `"/"` or `"\\"` ("invalid folder name"), and existing names ("exists"); otherwise adds exactly one empty folder |
| Folders.Delete | app.py:206-213 | refuses a missing name ("not found", 404); otherwise removes exactly that folder |
| Folders.Unfiled | app.py:231-233 | every folder loses exactly one occurrence of the file, if it has one |
| Folders.Moved | app.py:230-238 | the saved dictionary has the same folders as before, and a named target folder holds the file |
| Folders.UnfileAll | app.py:231-233 | the loop over the folder keys leaves exactly the unfiled map |
| Folders.Move | app.py:217-240 | the invalid-file (400), file-not-found and target-not-found (404) errors save nothing; otherwise the saved map is the file unfiled everywhere and appended to the target if absent |
| Folders.MoveFiles | app.py:234-238 | after a move to a folder, the folder holds the file |
| Folders.MoveUnfilesElsewhere | app.py:230-238 | every other folder loses one occurrence of the file and nothing else |
| Folders.MovePlacesFileOnce | app.py:230-238 | with duplicate-free folders, a move leaves the file in exactly the target folder (in none for Unsorted) and keeps folders duplicate-free |
| Folders.RemoveFirstOfUnique | app.py:233 | in a duplicate-free folder, removing the file removes it altogether |
| Auth.Strip | app.py:33 | `str.strip()`: a slice of the line after its leading whitespace, with only whitespace after it and no whitespace at either end |
| Auth.Entry | app.py:32-33 | a line yields a pair exactly when it contains `"="`; the key has no `"="`, and key, `"="` and value make up the stripped line |
| Auth.StripKeeps | app.py:32-33 | stripping never removes a `"="` |
| Auth.LoadAuth | app.py:26-35 | a missing file raises "Auth file missing: ..."; otherwise returns the `USERNAME` and `PASSWORD_HASH` entries of the parsed file |
| Auth.Parse | app.py:29-34 | no key of the parsed dictionary contains a `"="` |
| Auth.CollectedKeys | app.py:30-34 | a dictionary filled from entries whose keys have no `"="` has no such key |
| Auth.KeyPresent | app.py:30-35 | a key is in the parsed dictionary exactly when some line defines it |
| Auth.LastLineWins | app.py:30-35 | a key's value comes from the last line that defines it |
| Auth.CollectHas | app.py:30-35 | a key is in the filled dictionary exactly when some entry has it |
| Auth.CollectLastWins | app.py:30-35 | a filled dictionary holds, for each key, the value of the last entry with that key |
| Auth.IgnoredLine | app.py:32 | a line without `"="` leaves the dictionary unchanged |
| Auth.SampleLine | app.py:33-34 | ` U=a=b \n` yields key `U` and value `a=b`: whitespace stripped, split at the first `=` |

## Left out

- Flask routes, redirects, sessions, `login_required`, `ws_connect` and `check_password_hash`. These are HTTP and authentication plumbing around a foreign hashing call.
- Socket.IO transport: `emit`, `join_room`, `leave_room`, `disconnect`. Emissions are modelled only as events appended to one output sequence. Which connections are in a room is not modelled.
- Real threads, `Thread.start`, `time.sleep(0.2)` and scheduling. Each locked block and each unlocked thread step is one atomic step. Any order of steps is allowed, and no fairness is assumed.
- Real file I/O: `open`, `seek`, `tell`, `os.listdir`, `os.path.isfile`, `json.load` and `json.dump`. File contents, the listing, the set of regular files and the loaded folder map are parameters. A failed folder save is not modelled: the saved map is returned.
- Text-mode decoding: `errors="replace"`, universal newlines, seeking to offsets that are not from `tell`, and the extra breaks of `splitlines` such as `\r` and `\x0b`. Text is characters, and `"\n"` is the only line break.
- Exception messages are one fixed string, `Events.NoSuchFile`, for any file that cannot be opened. A read error in the middle of tailing is not modelled.
- `on_join` is one atomic step. In the code, `joined` and the backlog are sent before the lock is taken, and each pass of the backlog scan re-reads to the current end of file (app.py:105-106). Not modelled: a file appended to during the scan or between the scan and the lock, and steps of other threads (an old thread's check or cleanup) that run between app.py:262 and app.py:264.
- The `"thread"` and `"file"` entries of a record are not fields. The record's index is its thread, and its file is its thread's room.
- `on_disconnect` has an empty body, and the `__main__` block only starts the server.
- Log files only grow: `Registry.Append` is the only step that changes a file, and the cursor invariant `Registry.CursorOk` relies on it. Truncation, rotation or renaming, and deletion of a file being tailed are not modelled.
- The `print` to `sys.stderr` when `list_log_files` cannot list the directory (app.py:58). Only the empty result is modelled.
- Registry.Append and Server.LogServer.Append: another process appending to a log file. It is part of the environment, not of `app.py`.

## Findings

| source | as written | input that shows it | evidently intended | confidence | as-written member | corrected member |
|---|---|---|---|---|---|---|
| app.py:119-122 | the loop check looks the record up by room name, so a thread replaced by a later `on_join` finds the fresh unstopped record and keeps running | join `app.log` twice, both threads pass their check, then append `hello\n`: two `log_line` events carry `hello\n` | a thread leaves its loop once its own record is stopped | not executed | Lifecycle.DoubleJoinEmitsLineTwice | Lifecycle.WorkerCheckOwn |
| app.py:132-134 | the `finally` block pops the room's entry whichever join installed it | join, leave, old thread sees the stop, join again, old thread cleans up: `app.log` has no entry, and the new thread exits without ever being stopped | a thread removes only its own record | not executed | Lifecycle.CleanupDropsNewerEntry | Lifecycle.WorkerCleanupOwn |

For both rows:

- `Lifecycle.NextOwn` is the corrected system. It uses the corrected check and cleanup.
- `Lifecycle.StepOwnKeepsOwned` and `Lifecycle.RunOwnKeepsOwned` prove that it keeps the ownership rule `Registry.Owned`: a live thread whose record is not stopped holds its room's entry.
- `Lifecycle.OwnCheckAdmitsOnlyOwner`, `Lifecycle.ReplacedWorkerExitsWithOwnCheck` and `Lifecycle.RejoinSurvivesOwnCleanup` show that the two runs above behave as intended with the corrected steps.
- `Server.LogServer` keeps the code as written.

=== FILE: auth.dfy ===
/**
 * Credentials: a `KEY=VALUE` file read line by line at start-up. The file (its
 * lines, each with its line break) is a parameter; `None` stands for a missing file.
 */
module Auth {
  import opened Wrappers

  /** Python's `str.isspace` on one character (the characters `str.strip()` removes). */
  predicate IsSpace(c: char)
  {
    c == ' ' || ('\t' <= c <= '\r') || ('\U{1c}' <= c <= '\U{1f}') || c == '\U{85}' || c == '\U{a0}'
    || c == '\U{1680}' || ('\U{2000}' <= c <= '\U{200a}') || c == '\U{2028}' || c == '\U{2029}'
    || c == '\U{202f}' || c == '\U{205f}' || c == '\U{3000}'
  }

  /** Length of the longest whitespace prefix. */
  function LeadingSpace(s: string): (n: nat)
    ensures n <= |s|
    ensures forall i {:trigger IsSpace(s[i])} :: 0 <= i < n ==> IsSpace(s[i])
    ensures n < |s| ==> !IsSpace(s[n])
  {
    if s != [] && IsSpace(s[0]) then 1 + LeadingSpace(s[1..]) else 0
  }

  /** Length of `s` without its longest whitespace suffix. */
  function TrailingStart(s: string): (n: nat)
    ensures n <= |s|
    ensures forall i {:trigger IsSpace(s[i])} :: n <= i < |s| ==> IsSpace(s[i])
    ensures n > 0 ==> !IsSpace(s[n - 1])
  {
    if s != [] && IsSpace(s[|s| - 1]) then TrailingStart(s[..|s| - 1]) else |s|
  }

  /** `str.strip()`: the slice between the leading and the trailing whitespace. */
  function Strip(s: string): (r: string)
    ensures r == [] || (!IsSpace(r[0]) && !IsSpace(r[|r| - 1]))
    ensures LeadingSpace(s) + |r| <= |s| && r == s[LeadingSpace(s)..LeadingSpace(s) + |r|]
    ensures forall k {:trigger IsSpace(s[k])} :: LeadingSpace(s) + |r| <= k < |s| ==> IsSpace(s[k])
  {
    var i := LeadingSpace(s);
    var j := TrailingStart(s[i..]);
    TrailingIn(s, i);
    SliceEnds(s, i, j);
    s[i..i + j]
  }

  /** The ends of a non-empty slice are characters of the whole string. */
  lemma SliceEnds(s: string, i: nat, j: nat)
    requires i + j <= |s|
    ensures j > 0 ==> s[i..i + j][0] == s[i] && s[i..i + j][j - 1] == s[i + j - 1]
  {
  }

  /** The trailing whitespace of a suffix, read in the whole string. */
  lemma TrailingIn(s: string, i: nat)
    requires i <= |s|
    ensures var j := TrailingStart(s[i..]);
      && i + j <= |s|
      && (forall k {:trigger IsSpace(s[k])} :: i + j <= k < |s| ==> IsSpace(s[k]))
      && (j > 0 ==> !IsSpace(s[i + j - 1]))
  {
    var j := TrailingStart(s[i..]);
    forall k | i + j <= k < |s| ensures IsSpace(s[k]) {
      assert s[k] == s[i..][k - i];
    }
    if j > 0 {
      assert s[i + j - 1] == s[i..][j - 1];
    }
  }

  /** Index of the first `=` in `s`, or `|s|`. */
  function EqIndex(s: string): (i: nat)
    ensures i <= |s|
    ensures i < |s| ==> s[i] == '='
    ensures forall k :: 0 <= k < i ==> s[k] != '='
  {
    if s == [] then 0 else if s[0] == '=' then 0 else 1 + EqIndex(s[1..])
  }

  /** One line of the file: a `(key, value)` pair when it holds a `=`, split at the first one after stripping. */
  function Entry(line: string): (r: Option<(string, string)>)
    ensures r.None? <==> '=' !in line
    ensures r.Some? ==> '=' !in r.value.0
    ensures r.Some? ==> r.value.0 + "=" + r.value.1 == Strip(line)
  {
    if '=' in line then
      var t := Strip(line);
      StripKeeps(line);
      var i := EqIndex(t);
      SplitAtEq(t);
      CutAt(t, i);
      Some((t[..i], t[i + 1..]))
    else
      None
  }

  /** Text holding a `=` has a first `=`, and no `=` before it. */
  lemma SplitAtEq(t: string)
    requires '=' in t
    ensures var i := EqIndex(t); i < |t| && t[i] == '=' && '=' !in t[..i]
  {
    var i := EqIndex(t);
    var k :| 0 <= k < |t| && t[k] == '=';
    forall j | 0 <= j < i ensures t[..i][j] != '=' {
      assert t[..i][j] == t[j];
    }
  }

  /** Text is what precedes a `=`, the `=`, and what follows it. */
  lemma CutAt(t: string, i: nat)
    requires i < |t| && t[i] == '='
    ensures t == t[..i] + "=" + t[i + 1..]
  {
  }

  /** Stripping never removes a `=` (it is not whitespace). */
  lemma StripKeeps(s: string)
    requires '=' in s
    ensures '=' in Strip(s)
  {
    var k :| 0 <= k < |s| && s[k] == '=';
    var i := LeadingSpace(s);
    assert !IsSpace(s[k]);
    assert i <= k < i + |Strip(s)|;
    assert Strip(s)[k - i] == '=';
  }

  /** The entries of `lines`, one per line. */
  function Entries(lines: seq<string>): (es: seq<Option<(string, string)>>)
    ensures |es| == |lines|
    ensures forall j :: 0 <= j < |lines| ==> es[j] == Entry(lines[j])
  {
    seq(|lines|, j requires 0 <= j < |lines| => Entry(lines[j]))
  }

  /** A dictionary filled from `es` in order, a later key overwriting an earlier one. */
  function Collect(es: seq<Option<(string, string)>>): map<string, string>
  {
    if es == [] then map[]
    else
      var before := Collect(es[..|es| - 1]);
      var e := es[|es| - 1];
      if e.Some? then before[e.value.0 := e.value.1] else before
  }

  /** The dictionary the loop fills: the entries of `lines` in order, a later key overwriting an earlier one. */
  function Parse(lines: seq<string>): (data: map<string, string>)
    ensures forall k :: k in data ==> '=' !in k
  {
    CollectedKeys(Entries(lines));
    Collect(Entries(lines))
  }

  /** A dictionary filled from entries whose keys hold no `=` has no such key either. */
  lemma {:induction false} CollectedKeys(es: seq<Option<(string, string)>>)
    requires forall j :: 0 <= j < |es| && es[j].Some? ==> '=' !in es[j].value.0
    ensures forall k :: k in Collect(es) ==> '=' !in k
  {
    if es != [] {
      CollectedKeys(es[..|es| - 1]);
    }
  }

  /** The start-up result: the `USERNAME` and `PASSWORD_HASH` entries, or the error for a missing file. */
  method LoadAuth(file: Option<seq<string>>, path: string) returns (r: Result<(Option<string>, Option<string>), string>)
    ensures file.None? ==> r == Failure("Auth file missing: " + path)
    ensures file.Some? ==> r == Success((Get(Parse(file.value), "USERNAME"), Get(Parse(file.value), "PASSWORD_HASH")))
  {
    if file.None? {
      return Failure("Auth file missing: " + path);
    }
    var lines := file.value;
    var data: map<string, string> := map[];
    for i := 0 to |lines|
      invariant data == Parse(lines[..i])
    {
      var line := lines[i];
      assert lines[..i + 1] == lines[..i] + [line];
      ParseSnoc(lines[..i], line);
      if '=' in line {
        var t := Strip(line);
        StripKeeps(line);
        var eq := EqIndex(t);
        data := data[t[..eq] := t[eq + 1..]];
      }
    }
    assert lines[..|lines|] == lines;
    return Success((Get(data, "USERNAME"), Get(data, "PASSWORD_HASH")));
  }

  /** An entry for `key`. */
  predicate Has(e: Option<(string, string)>, key: string)
  {
    e.Some? && e.value.0 == key
  }

  /** A line that defines `key`. */
  predicate Defines(line: string, key: string)
  {
    Has(Entry(line), key)
  }

  /** One more entry updates the dictionary, if it is there. */
  lemma CollectSnoc(es: seq<Option<(string, string)>>, e: Option<(string, string)>)
    ensures Collect(es + [e]) == if e.Some? then Collect(es)[e.value.0 := e.value.1] else Collect(es)
  {
    assert (es + [e])[..|es|] == es;
  }

  /** A key is collected exactly when some entry has it. */
  lemma {:induction false} CollectHas(es: seq<Option<(string, string)>>, key: string)
    ensures key in Collect(es) <==> exists i :: 0 <= i < |es| && Has(es[i], key)
  {
    if es != [] {
      var init := es[..|es| - 1];
      CollectHas(init, key);
      if exists i :: 0 <= i < |init| && Has(init[i], key) {
        var i :| 0 <= i < |init| && Has(init[i], key);
        assert es[i] == init[i];
      }
      if exists i :: 0 <= i < |es| && Has(es[i], key) {
        var i :| 0 <= i < |es| && Has(es[i], key);
        if i < |init| { assert init[i] == es[i]; }
      }
    }
  }

  /** A collected value comes from the last entry with that key. */
  lemma {:induction false} CollectLastWins(es: seq<Option<(string, string)>>, key: string, i: nat)
    requires i < |es| && Has(es[i], key)
    requires forall j :: i < j < |es| ==> !Has(es[j], key)
    ensures key in Collect(es) && Collect(es)[key] == es[i].value.1
  {
    var init := es[..|es| - 1];
    if i < |es| - 1 {
      forall j | i < j < |init| ensures !Has(init[j], key) {
        assert init[j] == es[j];
      }
      assert init[i] == es[i];
      CollectLastWins(init, key, i);
    }
  }

  /** One more line updates the dictionary by its entry, if it has one. */
  lemma ParseSnoc(init: seq<string>, last: string)
    ensures Parse(init + [last]) == if Entry(last).Some? then Parse(init)[Entry(last).value.0 := Entry(last).value.1] else Parse(init)
  {
    assert Entries(init + [last]) == Entries(init) + [Entry(last)];
    CollectSnoc(Entries(init), Entry(last));
  }

  /** A key is present exactly when some line defines it. */
  lemma KeyPresent(lines: seq<string>, key: string)
    ensures key in Parse(lines) <==> exists i :: 0 <= i < |lines| && Defines(lines[i], key)
  {
    var es := Entries(lines);
    CollectHas(es, key);
    if exists i :: 0 <= i < |lines| && Defines(lines[i], key) {
      var i :| 0 <= i < |lines| && Defines(lines[i], key);
      assert Has(es[i], key);
    }
  }

  /** The value of `key` comes from the last line that defines it. */
  lemma LastLineWins(lines: seq<string>, key: string, i: nat)
    requires i < |lines| && Defines(lines[i], key)
    requires forall j :: i < j < |lines| ==> !Defines(lines[j], key)
    ensures key in Parse(lines) && Parse(lines)[key] == Entry(lines[i]).value.1
  {
    var es := Entries(lines);
    forall j | i < j < |es| ensures !Has(es[j], key) {
      assert !Defines(lines[j], key);
    }
    CollectLastWins(es, key, i);
  }

  /** A line without `=` leaves the dictionary as it was. */
  lemma IgnoredLine(lines: seq<string>, line: string)
    requires '=' !in line
    ensures Parse(lines + [line]) == Parse(lines)
  {
    ParseSnoc(lines, line);
  }

  /** A concrete line: surrounding whitespace goes, and the value keeps every `=` after the first. */
  lemma SampleLine()
    ensures Entry(" U=a=b \n") == Some(("U", "a=b"))
  {
    var s := " U=a=b \n";
    assert s[1..] == "U=a=b \n";
    assert LeadingSpace(s) == 1;
    var rest := "U=a=b \n";
    assert rest[..7][..6] == rest[..6];
    assert TrailingStart(rest[..6]) == 5;
    assert TrailingStart(rest) == 5;
    assert s[1..6] == "U=a=b";
    assert Strip(s) == "U=a=b";
    var t := "U=a=b";
    assert t[1..] == "=a=b";
    assert EqIndex(t) == 1;
    assert t[..1] == "U" && t[2..] == "a=b";
    assert '=' in s by { assert s[2] == '='; }
  }
}

=== FILE: events.dfy ===
/**
 * The Socket.IO events the streaming code emits. `log_line` and `log_error` go to the room named
 * by their file; `joined` goes only to the connection that joined.
 */
module Events {

  datatype Event =
    | Joined(file: string)                  // "joined" acknowledgement to the joining connection
    | LogLine(file: string, line: string)   // "log_line" with the text of one line
    | LogError(file: string, error: string) // "log_error" with the text of the raised exception

  /** The message `open` raises for a name that is not a readable file in the log directory. */
  const NoSuchFile: string := "No such file or directory"
}

=== FILE: folders.dfy ===
/**
 * Virtual folders: a dictionary from folder name to the list of log file names filed
 * in it, loaded from and saved to a JSON store. Each request loads the dictionary,
 * edits it in place and saves it; here the loaded dictionary is a parameter and the
 * saved one (if any) a result.
 */
module Folders {
  import opened Wrappers
  import opened Paths

  type FolderMap = map<string, seq<string>>

  /** An HTTP response: `{"ok": true}` or `{"error": ...}` with status 400 or 404. */
  datatype Response = Ok | BadRequest(error: string) | NotFound(error: string)

  /** `list.remove(x)`: drop the first occurrence of `x`, if any. */
  function RemoveFirst(xs: seq<string>, x: string): (r: seq<string>)
    ensures multiset(r) == multiset(xs) - multiset{x}
    ensures x in xs ==> |r| == |xs| - 1
    ensures x !in xs ==> r == xs
  {
    if xs == [] then []
    else if xs[0] == x then
      assert xs == [xs[0]] + xs[1..];
      xs[1..]
    else
      assert xs == [xs[0]] + xs[1..];
      [xs[0]] + RemoveFirst(xs[1..], x)
  }

  /** The first occurrence goes; everything before it and after it stays in order. */
  lemma {:induction false} RemoveFirstSplices(xs: seq<string>, x: string, i: nat)
    requires i < |xs| && xs[i] == x && x !in xs[..i]
    ensures RemoveFirst(xs, x) == xs[..i] + xs[i + 1..]
  {
    if i > 0 {
      var t := xs[1..];
      assert xs[..i] == [xs[0]] + t[..i - 1];
      assert t[i - 1] == x;
      RemoveFirstSplices(t, x, i - 1);
      assert xs[i + 1..] == t[i..];
    } else {
      assert xs[..i] + xs[i + 1..] == xs[1..];
    }
  }

  /** A folder name `folders_create` accepts: non-empty, without "/" or "\\". */
  predicate ValidFolderName(name: string)
  {
    name != "" && '/' !in name && '\\' !in name
  }

  /** `folders_create` with request name `name` ("" when absent). */
  method Create(folders: FolderMap, name: string) returns (resp: Response, saved: Option<FolderMap>)
    ensures !ValidFolderName(name) ==> resp == BadRequest("invalid folder name") && saved == None
    ensures ValidFolderName(name) && name in folders ==> resp == BadRequest("exists") && saved == None
    ensures resp.Ok? <==> ValidFolderName(name) && name !in folders
    ensures resp.Ok? ==> saved.Some? && saved.value.Keys == folders.Keys + {name} && saved.value[name] == []
    ensures resp.Ok? ==> forall k :: k in folders ==> saved.value[k] == folders[k]
  {
    if name == "" || '/' in name || '\\' in name {
      return BadRequest("invalid folder name"), None;
    }
    if name in folders {
      return BadRequest("exists"), None;
    }
    var edited := folders[name := []];
    return Ok, Some(edited);
  }

  /** `folders_delete` with request name `name`. */
  method Delete(folders: FolderMap, name: string) returns (resp: Response, saved: Option<FolderMap>)
    ensures resp.Ok? <==> name in folders
    ensures !resp.Ok? ==> resp == NotFound("not found") && saved == None
    ensures resp.Ok? ==> saved.Some? && saved.value.Keys == folders.Keys - {name}
    ensures resp.Ok? ==> forall k :: k in saved.value ==> saved.value[k] == folders[k]
  {
    if name !in folders {
      return NotFound("not found"), None;
    }
    var edited := folders - {name};
    return Ok, Some(edited);
  }

  /** Every folder with the first occurrence of `file` removed. */
  function Unfiled(folders: FolderMap, file: string): (r: FolderMap)
    ensures r.Keys == folders.Keys
    ensures forall k :: k in r ==> multiset(r[k]) == multiset(folders[k]) - multiset{file}
  {
    map k | k in folders :: RemoveFirst(folders[k], file)
  }

  /** The dictionary `folders_move` saves: `file` unfiled everywhere, then appended to `target` unless still there. */
  function Moved(folders: FolderMap, file: string, target: string): (r: FolderMap)
    requires target == "" || target in folders
    ensures r.Keys == folders.Keys
    ensures target != "" ==> file in r[target]
  {
    var unfiled := Unfiled(folders, file);
    if target != "" && file !in unfiled[target] then unfiled[target := unfiled[target] + [file]] else unfiled
  }

  /** `folders_move` with request `file` and `target` ("" for Unsorted); `isFile` holds the regular files of the log directory. */
  method Move(folders: FolderMap, isFile: set<string>, file: string, target: string)
    returns (resp: Response, saved: Option<FolderMap>)
    ensures Sanitize(file).None? || file == "" ==> resp == BadRequest("invalid file") && saved == None
    ensures Sanitize(file).Some? && file != "" && file !in isFile ==> resp == NotFound("file not found") && saved == None
    ensures Sanitize(file).Some? && file != "" && file in isFile && target != "" && target !in folders ==>
      resp == NotFound("target folder not found") && saved == None
    ensures resp.Ok? <==> Sanitize(file).Some? && file != "" && file in isFile && (target == "" || target in folders)
    ensures resp.Ok? ==> saved == Some(Moved(folders, file, target))
  {
    var checked := Sanitize(file);
    if checked.None? || checked.value == "" {
      return BadRequest("invalid file"), None;
    }
    var name := checked.value;
    if name !in isFile {
      return NotFound("file not found"), None;
    }
    var edited := UnfileAll(folders, name);
    if target != "" {
      if target !in folders {
        return NotFound("target folder not found"), None;
      }
      if name !in edited[target] {
        edited := edited[target := edited[target] + [name]];
      }
    }
    return Ok, Some(edited);
  }

  /** The loop of `folders_move` that removes `file` from every folder it is in. */
  method UnfileAll(folders: FolderMap, file: string) returns (edited: FolderMap)
    ensures edited == Unfiled(folders, file)
  {
    edited := folders;
    var keys := folders.Keys;
    while keys != {}
      invariant keys <= folders.Keys && edited.Keys == folders.Keys
      invariant forall k :: k in folders ==> edited[k] == if k in keys then folders[k] else RemoveFirst(folders[k], file)
      decreases keys
    {
      var k :| k in keys;
      if file in edited[k] {
        edited := edited[k := RemoveFirst(edited[k], file)];
      } else {
        assert RemoveFirst(folders[k], file) == folders[k];
      }
      keys := keys - {k};
    }
    UnfiledIs(folders, file, edited);
  }

  /** A dictionary with the same folders, each with `file` removed once, is the unfiled one. */
  lemma UnfiledIs(folders: FolderMap, file: string, edited: FolderMap)
    requires edited.Keys == folders.Keys
    requires forall k :: k in folders ==> edited[k] == RemoveFirst(folders[k], file)
    ensures edited == Unfiled(folders, file)
  {
    var u := Unfiled(folders, file);
    forall k | k in folders ensures edited[k] == u[k] {
    }
  }

  /** After a move, the target folder holds the file. */
  lemma MoveFiles(folders: FolderMap, file: string, target: string)
    requires target != "" && target in folders
    ensures var r := Moved(folders, file, target); r.Keys == folders.Keys && file in r[target]
  {
  }

  /** Every other folder loses one occurrence of the file and nothing else; moving to "" leaves the file in no folder it was in once. */
  lemma MoveUnfilesElsewhere(folders: FolderMap, file: string, target: string, k: string)
    requires target == "" || target in folders
    requires k in folders && k != target
    ensures multiset(Moved(folders, file, target)[k]) == multiset(folders[k]) - multiset{file}
  {
  }

  /** A folder list in which no name appears twice. */
  ghost predicate NoDuplicates(xs: seq<string>)
  {
    forall i, j :: 0 <= i < j < |xs| ==> xs[i] != xs[j]
  }

  /** When no folder lists a name twice, a move leaves the file in exactly the target folder (none for ""), and keeps lists duplicate-free. */
  lemma MovePlacesFileOnce(folders: FolderMap, file: string, target: string)
    requires target == "" || target in folders
    requires forall k :: k in folders ==> NoDuplicates(folders[k])
    ensures var r := Moved(folders, file, target);
      forall k :: k in r ==> (file in r[k] <==> target != "" && k == target) && NoDuplicates(r[k])
  {
    var r := Moved(folders, file, target);
    forall k | k in r ensures (file in r[k] <==> target != "" && k == target) && NoDuplicates(r[k]) {
      MovedFolder(folders, file, target, k);
    }
  }

  lemma MovedFolder(folders: FolderMap, file: string, target: string, k: string)
    requires target == "" || target in folders
    requires k in folders && NoDuplicates(folders[k])
    ensures var r := Moved(folders, file, target);
      k in r && (file in r[k] <==> target != "" && k == target) && NoDuplicates(r[k])
  {
    var xs := RemoveFirst(folders[k], file);
    RemoveFirstOfUnique(folders[k], file);
    MovedAt(folders, file, target, k);
    if target != "" && k == target {
      SnocNoDuplicates(xs, file);
    }
  }

  /** One folder after a move. */
  lemma MovedAt(folders: FolderMap, file: string, target: string, k: string)
    requires target == "" || target in folders
    requires k in folders
    ensures var xs := RemoveFirst(folders[k], file);
      k in Moved(folders, file, target) &&
      Moved(folders, file, target)[k] == if target != "" && k == target && file !in xs then xs + [file] else xs
  {
  }

  lemma SnocNoDuplicates(xs: seq<string>, x: string)
    requires x !in xs && NoDuplicates(xs)
    ensures x in xs + [x] && NoDuplicates(xs + [x])
  {
    forall i, j | 0 <= i < j < |xs + [x]| ensures (xs + [x])[i] != (xs + [x])[j] {
      assert (xs + [x])[i] == xs[i];
      if j < |xs| { assert (xs + [x])[j] == xs[j]; }
    }
  }

  /** In a duplicate-free list, removing the first occurrence removes the name altogether. */
  lemma {:induction false} RemoveFirstOfUnique(xs: seq<string>, x: string)
    requires NoDuplicates(xs)
    ensures x !in RemoveFirst(xs, x) && NoDuplicates(RemoveFirst(xs, x))
  {
    if xs != [] {
      assert NoDuplicates(xs[1..]) by {
        forall i, j | 0 <= i < j < |xs[1..]| ensures xs[1..][i] != xs[1..][j] {
          assert xs[1..][i] == xs[i + 1] && xs[1..][j] == xs[j + 1];
        }
      }
      assert xs[0] !in xs[1..] by {
        forall j | 0 <= j < |xs[1..]| ensures xs[1..][j] != xs[0] {
          assert xs[1..][j] == xs[j + 1];
        }
      }
      if xs[0] != x {
        var rest := RemoveFirst(xs[1..], x);
        RemoveFirstOfUnique(xs[1..], x);
        assert multiset(xs[1..])[xs[0]] == 0;
        assert multiset(rest)[xs[0]] == 0;
        ConsNoDuplicates(xs[0], rest);
      }
    }
  }

  lemma ConsNoDuplicates(x: string, xs: seq<string>)
    requires x !in xs && NoDuplicates(xs)
    ensures NoDuplicates([x] + xs)
  {
    forall i, j | 0 <= i < j < |[x] + xs| ensures ([x] + xs)[i] != ([x] + xs)[j] {
      assert ([x] + xs)[j] == xs[j - 1];
      if i > 0 { assert ([x] + xs)[i] == xs[i - 1]; }
    }
  }
}

=== FILE: lifecycle.dfy ===
/**
 * Properties of the thread lifecycle: what `on_leave` achieves, the two defects of the
 * code as written, and the corrected check and cleanup together with the ownership
 * rule they keep.
 */
module Lifecycle {
  import opened Wrappers
  import opened Events
  import opened Tail
  import opened Lines
  import opened Registry

  /** One atomic step of the server or of the environment. */
  datatype Step =
    | Join(file: string)
    | Leave(file: string)
    | Open(w: nat)
    | Check(w: nat)
    | Read(w: nat)
    | Cleanup(w: nat)
    | Write(name: string, more: string)

  /** Whether the thread a step belongs to stands where that step happens. */
  predicate Enabled(s: Sys, st: Step)
  {
    match st
    case Join(_) => true
    case Leave(_) => true
    case Write(_, _) => true
    case Open(w) => w < |s.workers| && s.workers[w].phase == Starting
    case Check(w) => w < |s.workers| && s.workers[w].phase == Checking
    case Read(w) => w < |s.workers| && s.workers[w].phase == Reading
    case Cleanup(w) => w < |s.workers| && s.workers[w].phase == Exiting
  }

  // ------------------------------------------------------------------
  // Leaving
  // ------------------------------------------------------------------

  /** After `on_leave`, every thread of that room leaves its loop at its next check. */
  lemma LeaveStopsRoom(s: Sys, file: string, w: nat)
    requires Valid(s) && file != ""
    requires w < |s.workers| && s.workers[w].phase == Checking && s.workers[w].room == file
    ensures WorkerCheck(OnLeave(s, file), w).workers[w].phase == Exiting
  {
    var r := OnLeave(s, file);
    assert !RoomRunning(r, file);
  }

  // ------------------------------------------------------------------
  // Defect 1: a replaced thread keeps running
  // ------------------------------------------------------------------

  /**
   * As written, `on_join` stops the old record but the old thread never reads that record:
   * it looks the room up by name, finds the fresh record, and passes its check although
   * its own record is stopped.
   */
  lemma ReplacedWorkerContinues(s: Sys, file: string, w: nat)
    requires Valid(s) && file != ""
    requires w < |s.workers| && s.workers[w].phase == Checking && s.workers[w].room == file
    ensures var r := OnJoin(s, file);
      r.records[w].stop == ((file in s.threads && s.threads[file] == w) || s.records[w].stop)
    ensures WorkerCheck(OnJoin(s, file), w).workers[w].phase == Reading
  {
  }

  /** Two threads of one room at the same cursor emit whatever is appended once each. */
  lemma SameCursorSameLine(s: Sys, file: string, more: string, i: nat, j: nat)
    requires Valid(s) && i < |s.workers| && j < |s.workers| && i != j
    requires s.workers[i].phase == Reading && s.workers[j].phase == Reading
    requires s.workers[i].room == file && s.workers[j].room == file
    requires s.workers[i].pos == s.workers[j].pos
    ensures var s1 := Append(s, file, more); var line := ReadLine(s1.files[file], s.workers[i].pos);
      WorkerRead(WorkerRead(s1, i), j).out == s.out + (if line == [] then [] else [LogLine(file, line), LogLine(file, line)])
  {
    var s1 := Append(s, file, more);
    var s2 := WorkerRead(s1, i);
    assert s2.workers[j] == s1.workers[j] && s2.files == s1.files;
  }

  /**
   * A concrete run: after a second join both threads pass their check at the same cursor,
   * so by `SameCursorSameLine` every line appended to the file is emitted twice.
   */
  lemma ReplacedWorkerDuplicatesLines()
    ensures
      var s0 := Init(map["app.log" := ""]);
      var s1 := OnJoin(s0, "app.log");
      var s2 := WorkerOpen(s1, 0);
      var s3 := OnJoin(s2, "app.log");
      var s4 := WorkerCheck(s3, 0);
      var s5 := WorkerOpen(s4, 1);
      var s6 := WorkerCheck(s5, 1);
      && s4.records[0].stop && s6.records[0].stop && !s6.records[1].stop
      && s6.workers[0].phase == Reading && s6.workers[1].phase == Reading
      && s6.workers[0].room == "app.log" && s6.workers[1].room == "app.log"
      && s6.workers[0].pos == s6.workers[1].pos
      && Valid(s6) && |s6.workers| == 2 && s6.files == map["app.log" := ""]
  {
    var s0 := Init(map["app.log" := ""]);
    var s1 := OnJoin(s0, "app.log");
    var s2 := WorkerOpen(s1, 0);
    var s3 := OnJoin(s2, "app.log");
    assert s3.workers[0] == s2.workers[0];
  }

  /** The run above, continued: "hello\n" is appended and each thread reads once; the room receives the line twice. */
  lemma DuplicatedLine(s: Sys)
    requires Valid(s) && |s.workers| == 2 && s.files == map["app.log" := ""]
    requires s.workers[0].phase == Reading && s.workers[1].phase == Reading
    requires s.workers[0].room == "app.log" && s.workers[1].room == "app.log"
    ensures var s1 := Append(s, "app.log", "hello\n");
      WorkerRead(WorkerRead(s1, 0), 1).out == s.out + [LogLine("app.log", "hello\n"), LogLine("app.log", "hello\n")]
  {
    assert s.workers[0].pos == 0 && s.workers[1].pos == 0;
    var s1 := Append(s, "app.log", "hello\n");
    assert s1.files["app.log"] == "hello\n";
    NewlineIndexIs("hello\n", 5);
    var line := ReadLine(s1.files["app.log"], 0);
    assert line == "hello\n";
    SameCursorSameLine(s, "app.log", "hello\n", 0, 1);
  }

  /** The whole run: two joins of `app.log`, both threads open and check, "hello\n" is appended and each reads once. */
  lemma DoubleJoinEmitsLineTwice()
    ensures
      var s0 := Init(map["app.log" := ""]);
      var s6 := WorkerCheck(WorkerOpen(WorkerCheck(OnJoin(WorkerOpen(OnJoin(s0, "app.log"), 0), "app.log"), 0), 1), 1);
      var s7 := Append(s6, "app.log", "hello\n");
      WorkerRead(WorkerRead(s7, 0), 1).out == s6.out + [LogLine("app.log", "hello\n"), LogLine("app.log", "hello\n")]
  {
    ReplacedWorkerDuplicatesLines();
    var s0 := Init(map["app.log" := ""]);
    var s6 := WorkerCheck(WorkerOpen(WorkerCheck(OnJoin(WorkerOpen(OnJoin(s0, "app.log"), 0), "app.log"), 0), 1), 1);
    DuplicatedLine(s6);
  }

  // ------------------------------------------------------------------
  // Defect 2: an exiting thread removes a newer thread's entry
  // ------------------------------------------------------------------

  /**
   * A concrete run: the viewer leaves, the old thread sees the stop, the viewer joins again,
   * and the old thread's `finally` block pops the NEW record. The new thread, never asked to
   * stop, then finds no record and exits: the rejoined viewer gets no live lines.
   */
  lemma CleanupDropsNewerEntry()
    ensures
      var s0 := Init(map["app.log" := ""]);
      var s1 := OnJoin(s0, "app.log");
      var s2 := WorkerOpen(s1, 0);
      var s3 := OnLeave(s2, "app.log");
      var s4 := WorkerCheck(s3, 0);
      var s5 := OnJoin(s4, "app.log");
      var s6 := WorkerCleanup(s5, 0);
      var s7 := WorkerOpen(s6, 1);
      var s8 := WorkerCheck(s7, 1);
      && !s8.records[1].stop && "app.log" !in s6.threads
      && !Owned(s6)
      && s8.workers[1].phase == Exiting
  {
  }

  // ------------------------------------------------------------------
  // Corrected check and cleanup
  // ------------------------------------------------------------------

  /** Corrected check: go on only while the room's record is this thread's own and it is not stopped. */
  function WorkerCheckOwn(s: Sys, w: nat): (r: Sys)
    requires Valid(s) && w < |s.workers| && s.workers[w].phase == Checking
    ensures Valid(r)
    ensures r.files == s.files && r.threads == s.threads && r.records == s.records && r.out == s.out
    ensures |r.workers| == |s.workers| && forall i :: 0 <= i < |s.workers| && i != w ==> r.workers[i] == s.workers[i]
    ensures r.workers[w] == s.workers[w].(phase := r.workers[w].phase)
    ensures s.records[w].stop ==> r.workers[w].phase == Exiting
    ensures r.workers[w].phase == Reading || r.workers[w].phase == Exiting
    ensures r.workers[w].phase == Reading <==>
      s.workers[w].room in s.threads && s.threads[s.workers[w].room] == w && !s.records[w].stop
  {
    var wk := s.workers[w];
    var mine := wk.room in s.threads && s.threads[wk.room] == w && !s.records[w].stop;
    UpdateWorkerValid(s, w, wk.(phase := if mine then Reading else Exiting));
    s.(workers := s.workers[w := wk.(phase := if mine then Reading else Exiting)])
  }

  /** Corrected cleanup: pop the room's entry only if it is still this thread's record. */
  function WorkerCleanupOwn(s: Sys, w: nat): (r: Sys)
    requires Valid(s) && w < |s.workers| && s.workers[w].phase == Exiting
    ensures Valid(r)
    ensures r.files == s.files && r.records == s.records && r.out == s.out
    ensures forall room :: room in s.threads && s.threads[room] != w ==> room in r.threads && r.threads[room] == s.threads[room]
    ensures forall room :: room in r.threads ==> room in s.threads && s.threads[room] != w
    ensures |r.workers| == |s.workers| && forall i :: 0 <= i < |s.workers| && i != w ==> r.workers[i] == s.workers[i]
    ensures r.workers[w] == s.workers[w].(phase := Finished)
  {
    var wk := s.workers[w];
    var threads := if wk.room in s.threads && s.threads[wk.room] == w then s.threads - {wk.room} else s.threads;
    UpdateWorkerValid(s, w, wk.(phase := Finished));
    DropThreadsValid(s.(workers := s.workers[w := wk.(phase := Finished)]), threads);
    s.(threads := threads, workers := s.workers[w := wk.(phase := Finished)])
  }

  /** One step of the corrected system. */
  function NextOwn(s: Sys, st: Step): (r: Sys)
    requires Valid(s) && Enabled(s, st)
    ensures Valid(r)
  {
    match st
    case Join(file) => OnJoin(s, file)
    case Leave(file) => OnLeave(s, file)
    case Open(w) => WorkerOpen(s, w)
    case Check(w) => WorkerCheckOwn(s, w)
    case Read(w) => WorkerRead(s, w)
    case Cleanup(w) => WorkerCleanupOwn(s, w)
    case Write(name, more) => Append(s, name, more)
  }

  /** A schedule of steps run from `s` in the corrected system; `None` if some step is not enabled when its turn comes. */
  function RunOwn(s: Sys, steps: seq<Step>): (r: Option<Sys>)
    requires Valid(s)
    ensures r.Some? ==> Valid(r.value)
    decreases |steps|
  {
    if steps == [] then Some(s)
    else if !Enabled(s, steps[0]) then None
    else RunOwn(NextOwn(s, steps[0]), steps[1..])
  }

  /** Owned makes the unstopped live thread of a room unique. */
  lemma OneUnstoppedThreadPerRoom(s: Sys, i: nat, j: nat)
    requires Valid(s) && Owned(s)
    requires i < |s.workers| && Live(s.workers[i].phase) && !s.records[i].stop
    requires j < |s.workers| && Live(s.workers[j].phase) && !s.records[j].stop
    requires s.workers[i].room == s.workers[j].room
    ensures i == j
  {
  }

  lemma JoinKeepsOwned(s: Sys, file: string)
    requires Valid(s) && Owned(s)
    ensures Owned(OnJoin(s, file))
  {
    var r := OnJoin(s, file);
    if file != "" {
      forall i | 0 <= i < |r.workers| && Live(r.workers[i].phase) && !r.records[i].stop
        ensures r.workers[i].room in r.threads && r.threads[r.workers[i].room] == i
      {
        if i < |s.workers| {
          assert r.workers[i] == s.workers[i];
          assert !(file in s.threads && i == s.threads[file]);
          assert r.records[i] == s.records[i];
        }
      }
    }
  }

  lemma LeaveKeepsOwned(s: Sys, file: string)
    requires Valid(s) && Owned(s)
    ensures Owned(OnLeave(s, file))
  {
  }

  lemma CheckOwnKeepsOwned(s: Sys, w: nat)
    requires Valid(s) && Owned(s) && w < |s.workers| && s.workers[w].phase == Checking
    ensures Owned(WorkerCheckOwn(s, w))
  {
    var r := WorkerCheckOwn(s, w);
    forall i | 0 <= i < |r.workers| && Live(r.workers[i].phase) && !r.records[i].stop
      ensures r.workers[i].room in r.threads && r.threads[r.workers[i].room] == i
    {
      assert r.workers[i].room == s.workers[i].room;
    }
  }

  lemma CleanupOwnKeepsOwned(s: Sys, w: nat)
    requires Valid(s) && Owned(s) && w < |s.workers| && s.workers[w].phase == Exiting
    ensures Owned(WorkerCleanupOwn(s, w))
  {
    var r := WorkerCleanupOwn(s, w);
    forall i | 0 <= i < |r.workers| && Live(r.workers[i].phase) && !r.records[i].stop
      ensures r.workers[i].room in r.threads && r.threads[r.workers[i].room] == i
    {
      assert i != w;
      assert r.workers[i] == s.workers[i];
    }
  }

  /** Every corrected step keeps the ownership rule. */
  lemma {:induction false} StepOwnKeepsOwned(s: Sys, st: Step)
    requires Valid(s) && Owned(s) && Enabled(s, st)
    ensures Owned(NextOwn(s, st))
  {
    match st
    case Join(file) => JoinKeepsOwned(s, file);
    case Leave(file) => LeaveKeepsOwned(s, file);
    case Open(w) =>
      var r := WorkerOpen(s, w);
      forall i | 0 <= i < |r.workers| && Live(r.workers[i].phase) && !r.records[i].stop
        ensures r.workers[i].room in r.threads && r.threads[r.workers[i].room] == i
      {
        assert r.workers[i].room == s.workers[i].room;
      }
    case Check(w) => CheckOwnKeepsOwned(s, w);
    case Read(w) =>
      var r := WorkerRead(s, w);
      forall i | 0 <= i < |r.workers| && Live(r.workers[i].phase) && !r.records[i].stop
        ensures r.workers[i].room in r.threads && r.threads[r.workers[i].room] == i
      {
        assert r.workers[i].room == s.workers[i].room;
      }
    case Cleanup(w) => CleanupOwnKeepsOwned(s, w);
    case Write(name, more) =>
  }

  /** Every state the corrected system reaches from server start keeps the ownership rule. */
  lemma {:induction false} RunOwnKeepsOwned(s: Sys, steps: seq<Step>)
    requires Valid(s) && Owned(s)
    ensures var r := RunOwn(s, steps); r.Some? ==> Owned(r.value)
    decreases |steps|
  {
    if steps != [] && Enabled(s, steps[0]) {
      StepOwnKeepsOwned(s, steps[0]);
      RunOwnKeepsOwned(NextOwn(s, steps[0]), steps[1..]);
    }
  }

  /**
   * With the corrected check, a thread whose record was stopped (by a later join or by a
   * leave) exits at its next check, and a thread that goes on is the room's only
   * unstopped live thread.
   */
  lemma OwnCheckAdmitsOnlyOwner(s: Sys, w: nat)
    requires Valid(s) && Owned(s) && w < |s.workers| && s.workers[w].phase == Checking
    ensures WorkerCheckOwn(s, w).workers[w].phase == Reading ==>
      !s.records[w].stop &&
      forall j :: 0 <= j < |s.workers| && j != w && Live(s.workers[j].phase) && s.workers[j].room == s.workers[w].room ==>
        s.records[j].stop
  {
  }

  /** The run of `CleanupDropsNewerEntry` with the corrected check and cleanup: the rejoined thread keeps running. */
  lemma RejoinSurvivesOwnCleanup()
    ensures
      var s0 := Init(map["app.log" := ""]);
      var s1 := OnJoin(s0, "app.log");
      var s2 := WorkerOpen(s1, 0);
      var s3 := OnLeave(s2, "app.log");
      var s4 := WorkerCheckOwn(s3, 0);
      var s5 := OnJoin(s4, "app.log");
      var s6 := WorkerCleanupOwn(s5, 0);
      var s7 := WorkerOpen(s6, 1);
      var s8 := WorkerCheckOwn(s7, 1);
      && "app.log" in s6.threads && s6.threads["app.log"] == 1
      && s8.workers[1].phase == Reading
  {
  }

  /** The run of `ReplacedWorkerDuplicatesLines` with the corrected check: the replaced thread exits instead. */
  lemma ReplacedWorkerExitsWithOwnCheck()
    ensures
      var s0 := Init(map["app.log" := ""]);
      var s1 := OnJoin(s0, "app.log");
      var s2 := WorkerOpen(s1, 0);
      var s3 := OnJoin(s2, "app.log");
      var s4 := WorkerCheckOwn(s3, 0);
      s4.workers[0].phase == Exiting
  {
  }
}

=== FILE: lines.dfy ===
/**
 * Text as a sequence of characters, with "\n" as the only line break.
 * `SplitLines` is Python's `str.splitlines()` restricted to that break,
 * `JoinLines` is its partner that writes each line back with its "\n".
 */
module Lines {

  /** Index of the first "\n" in `s`, or `|s|` when there is none. */
  function NewlineIndex(s: string): (i: nat)
    ensures i <= |s|
    ensures i < |s| ==> s[i] == '\n'
    ensures forall j :: 0 <= j < i ==> s[j] != '\n'
  {
    if s == [] then 0
    else if s[0] == '\n' then 0
    else 1 + NewlineIndex(s[1..])
  }

  /** `s.splitlines()`: the pieces between line breaks; a final "\n" does not open an empty line. */
  function SplitLines(s: string): (ls: seq<string>)
    ensures |ls| == 0 <==> s == []
    decreases |s|
  {
    if s == [] then []
    else
      var i := NewlineIndex(s);
      if i == |s| then [s] else [s[..i]] + SplitLines(s[i + 1..])
  }

  /** No line of `ls` holds a break. */
  ghost predicate NoBreaks(ls: seq<string>)
  {
    forall k :: 0 <= k < |ls| ==> '\n' !in ls[k]
  }

  /** No line that `SplitLines` returns holds a break. */
  lemma {:induction false} LinesHaveNoBreak(s: string)
    ensures NoBreaks(SplitLines(s))
    decreases |s|
  {
    if s != [] {
      var i := NewlineIndex(s);
      FirstLineNoBreak(s, i);
      if i == |s| {
        assert s[..i] == s;
        OneLine(s);
      } else {
        LinesHaveNoBreak(s[i + 1..]);
        SplitFirst(s, i);
        ConsNoBreaks(s[..i], SplitLines(s[i + 1..]));
      }
    }
  }

  lemma FirstLineNoBreak(s: string, i: nat)
    requires i == NewlineIndex(s)
    ensures '\n' !in s[..i]
  {
    assert forall j :: 0 <= j < i ==> s[..i][j] == s[j];
  }

  lemma ConsNoBreaks(x: string, ls: seq<string>)
    requires '\n' !in x && NoBreaks(ls)
    ensures NoBreaks([x] + ls)
  {
    forall k | 0 <= k < |[x] + ls| ensures '\n' !in ([x] + ls)[k] {
      if k > 0 { assert ([x] + ls)[k] == ls[k - 1]; }
    }
  }

  /** Each line followed by "\n", concatenated. */
  function JoinLines(ls: seq<string>): (s: string)
    ensures |s| >= |ls|
  {
    if ls == [] then [] else ls[0] + "\n" + JoinLines(ls[1..])
  }

  /** The newline search stops at the first break. */
  lemma NewlineIndexIs(s: string, i: nat)
    requires i <= |s| && (i < |s| ==> s[i] == '\n')
    requires forall j :: 0 <= j < i ==> s[j] != '\n'
    ensures NewlineIndex(s) == i
  {
  }

  /** Writing lines out and splitting them again gives the same lines. */
  lemma {:induction false} SplitJoin(ls: seq<string>)
    requires forall k :: 0 <= k < |ls| ==> '\n' !in ls[k]
    ensures SplitLines(JoinLines(ls)) == ls
  {
    if ls != [] {
      var s := JoinLines(ls);
      var rest := JoinLines(ls[1..]);
      assert s == ls[0] + "\n" + rest;
      assert forall j :: 0 <= j < |ls[0]| ==> s[j] == ls[0][j];
      NewlineIndexIs(s, |ls[0]|);
      assert s[..|ls[0]|] == ls[0];
      assert s[|ls[0]| + 1..] == rest;
      SplitJoin(ls[1..]);
    }
  }

  /** Text that is empty or ends with "\n" is rebuilt exactly from its lines. */
  lemma {:induction false} JoinSplit(s: string)
    requires s == [] || s[|s| - 1] == '\n'
    ensures JoinLines(SplitLines(s)) == s
    decreases |s|
  {
    if s != [] {
      var i := NewlineIndex(s);
      LastBreak(s);
      var rest := s[i + 1..];
      JoinSplit(rest);
      SplitFirst(s, i);
      JoinCons(s[..i], SplitLines(rest));
      CutAtBreak(s, i);
    }
  }

  /** Text whose last line has no final break is rebuilt with exactly one "\n" added at the end. */
  lemma {:induction false} JoinSplitPartial(s: string)
    requires s != [] && s[|s| - 1] != '\n'
    ensures JoinLines(SplitLines(s)) == s + "\n"
    decreases |s|
  {
    var i := NewlineIndex(s);
    if i == |s| {
      OneLine(s);
      assert JoinLines([s]) == s + "\n" + JoinLines([]);
    } else {
      var rest := s[i + 1..];
      assert rest != [] && rest[|rest| - 1] == s[|s| - 1];
      JoinSplitPartial(rest);
      SplitFirst(s, i);
      JoinCons(s[..i], SplitLines(rest));
      CutAtBreak(s, i);
    }
  }

  /** Text ending in a break has a first break, and what follows it ends in a break too. */
  lemma LastBreak(s: string)
    requires s != [] && s[|s| - 1] == '\n'
    ensures NewlineIndex(s) < |s|
    ensures var rest := s[NewlineIndex(s) + 1..]; rest == [] || rest[|rest| - 1] == '\n'
  {
  }

  /** Text is its first line, the break, and the rest. */
  lemma CutAtBreak(s: string, i: nat)
    requires i < |s| && s[i] == '\n'
    ensures s == s[..i] + "\n" + s[i + 1..]
  {
  }

  lemma JoinCons(x: string, ls: seq<string>)
    ensures JoinLines([x] + ls) == x + "\n" + JoinLines(ls)
  {
    assert ([x] + ls)[1..] == ls;
  }

  /** Text without a break is one line. */
  lemma OneLine(s: string)
    requires s != [] && '\n' !in s
    ensures SplitLines(s) == [s]
  {
    NewlineIndexIs(s, |s|);
  }

  /** Apart from its first element, `w` is a suffix of `l`. */
  ghost predicate TailOf(w: seq<string>, l: seq<string>)
  {
    |w| >= 1 ==> |w| - 1 <= |l| && w[1..] == l[|l| - (|w| - 1)..]
  }

  /**
   * Splitting a window `t[k..]` that starts anywhere in `t`: apart from its first
   * (possibly cut) line, the window's lines are the last lines of `t`.
   */
  lemma {:induction false} WindowLines(t: string, k: nat)
    requires k <= |t|
    ensures TailOf(SplitLines(t[k..]), SplitLines(t))
    decreases |t|
  {
    if k == 0 {
      assert t[k..] == t;
      TailOfSame(SplitLines(t));
    } else if k < |t| {
      var i := NewlineIndex(t);
      if i == |t| {
        WindowOfOneLine(t, k);
      } else if k <= i {
        WindowCutsFirstLine(t, k, i);
      } else {
        WindowLines(t[i + 1..], k - i - 1);
        WindowSkipsFirstLine(t, k, i);
      }
    }
  }

  /** `WindowLines` for a text without a break. */
  lemma WindowOfOneLine(t: string, k: nat)
    requires k < |t| && NewlineIndex(t) == |t|
    ensures TailOf(SplitLines(t[k..]), SplitLines(t))
  {
    WindowWithoutBreak(t, k);
    TailOfSingle(t[k..], SplitLines(t));
  }

  /** `WindowLines` for a window starting in the first line. */
  lemma WindowCutsFirstLine(t: string, k: nat, i: nat)
    requires k <= i < |t| && NewlineIndex(t) == i
    ensures TailOf(SplitLines(t[k..]), SplitLines(t))
  {
    SplitFirst(t, i);
    WindowInFirstLine(t, k, i);
    TailOfShared(t[k..i], t[..i], SplitLines(t[i + 1..]));
  }

  /** `WindowLines` for a window starting after the first break, given it for the text after that break. */
  lemma WindowSkipsFirstLine(t: string, k: nat, i: nat)
    requires i < k <= |t| && NewlineIndex(t) == i
    requires TailOf(SplitLines(t[i + 1..][k - i - 1..]), SplitLines(t[i + 1..]))
    ensures TailOf(SplitLines(t[k..]), SplitLines(t))
  {
    SplitFirst(t, i);
    WindowAfterFirstLine(t, k, i);
    TailOfLonger(SplitLines(t[k..]), t[..i], SplitLines(t[i + 1..]));
  }

  lemma TailOfSame(l: seq<string>)
    ensures TailOf(l, l)
  {
  }

  lemma TailOfSingle(x: string, l: seq<string>)
    ensures TailOf([x], l)
  {
  }

  lemma TailOfShared(a: string, b: string, r: seq<string>)
    ensures TailOf([a] + r, [b] + r)
  {
    assert ([a] + r)[1..] == r;
    assert ([b] + r)[1..] == r;
  }

  lemma TailOfLonger(w: seq<string>, b: string, r: seq<string>)
    requires TailOf(w, r)
    ensures TailOf(w, [b] + r)
  {
    if |w| >= 1 {
      assert ([b] + r)[|[b] + r| - (|w| - 1)..] == r[|r| - (|w| - 1)..];
    }
  }

  /** A text without a break: the window is one line. */
  lemma WindowWithoutBreak(t: string, k: nat)
    requires k < |t| && NewlineIndex(t) == |t|
    ensures SplitLines(t[k..]) == [t[k..]]
  {
    assert '\n' !in t[k..] by {
      forall j | 0 <= j < |t[k..]| ensures t[k..][j] != '\n' {
        assert t[k..][j] == t[k + j];
      }
    }
    OneLine(t[k..]);
  }

  /** A text with a break splits into its first line and the lines after the break. */
  lemma SplitFirst(t: string, i: nat)
    requires i < |t| && NewlineIndex(t) == i
    ensures SplitLines(t) == [t[..i]] + SplitLines(t[i + 1..])
  {
  }

  /** A window that starts after the first line is a window of the text after that line. */
  lemma WindowAfterFirstLine(t: string, k: nat, i: nat)
    requires i < k <= |t|
    ensures t[k..] == t[i + 1..][k - i - 1..]
  {
  }

  /** A window that starts inside the first line shares every later line with the text. */
  lemma WindowInFirstLine(t: string, k: nat, i: nat)
    requires k <= i < |t| && NewlineIndex(t) == i
    ensures SplitLines(t[k..]) == [t[k..i]] + SplitLines(t[i + 1..])
  {
    BreakInWindow(t, k, i);
    SplitWindowAtBreak(t, k, i);
  }

  lemma BreakInWindow(t: string, k: nat, i: nat)
    requires k <= i < |t| && NewlineIndex(t) == i
    ensures NewlineIndex(t[k..]) == i - k
  {
    BreakInSuffix(t, k);
  }

  /** Dropping characters before the first break moves the break back by as many. */
  lemma {:induction false} BreakInSuffix(t: string, k: nat)
    requires k <= NewlineIndex(t)
    ensures NewlineIndex(t[k..]) == NewlineIndex(t) - k
  {
    if k == 0 {
      assert t[k..] == t;
    } else {
      assert t[0] != '\n';
      BreakInSuffix(t[1..], k - 1);
      assert t[1..][k - 1..] == t[k..];
    }
  }

  lemma SplitWindowAtBreak(t: string, k: nat, i: nat)
    requires k <= i < |t| && NewlineIndex(t[k..]) == i - k
    ensures SplitLines(t[k..]) == [t[k..i]] + SplitLines(t[i + 1..])
  {
    WindowPieces(t, k, i);
    SplitAt(t[k..], i - k, t[k..i], t[i + 1..]);
  }

  /** The pieces of a window around one of its positions, as slices of the whole text. */
  lemma WindowPieces(t: string, k: nat, i: nat)
    requires k <= i < |t|
    ensures t[k..][..i - k] == t[k..i] && t[k..][i - k + 1..] == t[i + 1..]
  {
  }

  /** `SplitFirst` with the two pieces named. */
  lemma SplitAt(u: string, i: nat, first: string, rest: string)
    requires i < |u| && NewlineIndex(u) == i && first == u[..i] && rest == u[i + 1..]
    ensures SplitLines(u) == [first] + SplitLines(rest)
  {
    SplitFirst(u, i);
  }

  /** Once a window holds more than `n >= 1` lines, its last `n` lines are those of the whole text. */
  lemma WindowLastLines(t: string, k: nat, n: nat)
    requires k <= |t| && 1 <= n < |SplitLines(t[k..])|
    ensures var w := SplitLines(t[k..]); var l := SplitLines(t);
      n <= |l| && w[|w| - n..] == l[|l| - n..]
  {
    WindowLines(t, k);
    TailOfLast(SplitLines(t[k..]), SplitLines(t), n);
  }

  /** The last `n` elements of `w`, short of its first, are the last `n` of `l`. */
  lemma TailOfLast(w: seq<string>, l: seq<string>, n: nat)
    requires TailOf(w, l) && 1 <= n < |w|
    ensures n <= |l| && w[|w| - n..] == l[|l| - n..]
  {
    var m := |w| - 1;
    assert w[1..] == l[|l| - m..];
    assert w[|w| - n..] == w[1..][m - n..];
    assert l[|l| - m..][m - n..] == l[|l| - n..];
  }
}

=== FILE: listing.dfy ===
/**
 * The file list shown to viewers: `list_log_files` (regular files of the log directory
 * with an allowed extension, sorted) and the `/logs/list` grouping into virtual folders
 * plus "unsorted".
 */
module Listing {
  import opened Wrappers
  import opened Paths

  // ------------------------------------------------------------------
  // Python's ordering of str values: code point by code point
  // ------------------------------------------------------------------

  predicate LessEq(a: string, b: string)
  {
    a == [] || (b != [] && (a[0] < b[0] || (a[0] == b[0] && LessEq(a[1..], b[1..]))))
  }

  lemma {:induction false} LessEqTotal(a: string, b: string)
    ensures LessEq(a, b) || LessEq(b, a)
  {
    if a != [] && b != [] && a[0] == b[0] {
      LessEqTotal(a[1..], b[1..]);
    }
  }

  lemma {:induction false} LessEqTrans(a: string, b: string, c: string)
    requires LessEq(a, b) && LessEq(b, c)
    ensures LessEq(a, c)
  {
    if a != [] && b != [] && c != [] && a[0] == b[0] && b[0] == c[0] {
      LessEqTrans(a[1..], b[1..], c[1..]);
    }
  }

  ghost predicate Sorted(xs: seq<string>)
  {
    forall i, j :: 0 <= i < j < |xs| ==> LessEq(xs[i], xs[j])
  }

  /** Insert `x` into a sorted list. */
  function Insert(x: string, xs: seq<string>): (r: seq<string>)
    ensures multiset(r) == multiset(xs) + multiset{x}
    ensures Sorted(xs) ==> Sorted(r)
  {
    if xs == [] then [x]
    else if LessEq(x, xs[0]) then
      assert Sorted(xs) ==> Sorted([x] + xs) by {
        if Sorted(xs) {
          forall j | 0 <= j < |xs| ensures LessEq(x, xs[j]) {
            if j > 0 { LessEqTrans(x, xs[0], xs[j]); }
          }
          ConsLower(x, xs);
        }
      }
      [x] + xs
    else
      var rest := Insert(x, xs[1..]);
      assert xs == [xs[0]] + xs[1..];
      assert Sorted(xs) ==> Sorted([xs[0]] + rest) by {
        if Sorted(xs) {
          LessEqTotal(x, xs[0]);
          forall j | 0 <= j < |rest| ensures LessEq(xs[0], rest[j]) {
            InsertedFrom(x, xs, rest, j);
          }
          ConsLower(xs[0], rest);
        }
      }
      [xs[0]] + rest
  }

  /** An element of the insertion into the tail is the inserted name or an element of the tail. */
  lemma InsertedFrom(x: string, xs: seq<string>, rest: seq<string>, j: nat)
    requires xs != [] && Sorted(xs) && LessEq(xs[0], x)
    requires multiset(rest) == multiset(xs[1..]) + multiset{x}
    requires j < |rest|
    ensures LessEq(xs[0], rest[j])
  {
    assert rest[j] in multiset(rest);
    if rest[j] != x {
      assert rest[j] in multiset(xs[1..]);
      var k :| 0 <= k < |xs[1..]| && xs[1..][k] == rest[j];
      assert xs[k + 1] == rest[j];
    }
  }

  /** A name below every element of a sorted list can go in front of it. */
  lemma ConsLower(y: string, rest: seq<string>)
    requires Sorted(rest) && forall j :: 0 <= j < |rest| ==> LessEq(y, rest[j])
    ensures Sorted([y] + rest)
  {
    forall i, j | 0 <= i < j < |[y] + rest| ensures LessEq(([y] + rest)[i], ([y] + rest)[j]) {
      assert ([y] + rest)[j] == rest[j - 1];
      if i > 0 { assert ([y] + rest)[i] == rest[i - 1]; }
    }
  }

  /** `list.sort()` on names: the same names in ascending order. */
  function Sort(xs: seq<string>): (r: seq<string>)
    ensures multiset(r) == multiset(xs)
    ensures Sorted(r)
  {
    if xs == [] then []
    else
      assert xs == [xs[0]] + xs[1..];
      Insert(xs[0], Sort(xs[1..]))
  }

  // ------------------------------------------------------------------
  // list_log_files
  // ------------------------------------------------------------------

  /** A directory entry that `list_log_files` keeps: a regular file with an allowed extension. */
  predicate Eligible(entry: string, isFile: set<string>)
  {
    entry in isFile && Ext(entry) in Allowed
  }

  /** The eligible entries of a listing, in listing order. */
  function EligibleEntries(entries: seq<string>, isFile: set<string>): (r: seq<string>)
    ensures |r| <= |entries|
  {
    if entries == [] then []
    else EligibleEntries(entries[..|entries| - 1], isFile) + (if Eligible(entries[|entries| - 1], isFile) then [entries[|entries| - 1]] else [])
  }

  /** The filter keeps exactly the eligible entries, each as often as the listing has it. */
  lemma {:induction false} EligibleEntriesKept(entries: seq<string>, isFile: set<string>)
    ensures var r := EligibleEntries(entries, isFile);
      forall f :: multiset(r)[f] == if Eligible(f, isFile) then multiset(entries)[f] else 0
    ensures forall f :: f in EligibleEntries(entries, isFile) <==> f in entries && Eligible(f, isFile)
  {
    var r := EligibleEntries(entries, isFile);
    if entries != [] {
      var init := entries[..|entries| - 1];
      var last := entries[|entries| - 1];
      assert entries == init + [last];
      EligibleEntriesKept(init, isFile);
    }
    forall f ensures f in r <==> f in entries && Eligible(f, isFile) {
      assert f in r <==> multiset(r)[f] > 0;
      assert f in entries <==> multiset(entries)[f] > 0;
    }
  }

  /**
   * `list_log_files()` over the directory listing `listing` (`None` when `os.listdir`
   * raises) and the set `isFile` of names that are regular files.
   */
  method ListLogFiles(listing: Option<seq<string>>, isFile: set<string>) returns (files: seq<string>)
    ensures Sorted(files)
    ensures listing.None? ==> files == []
    ensures listing.Some? ==> multiset(files) == multiset(EligibleEntries(listing.value, isFile))
    ensures forall f :: f in files <==> listing.Some? && f in listing.value && Eligible(f, isFile)
  {
    files := [];
    if listing.Some? {
      var entries := listing.value;
      for i := 0 to |entries|
        invariant files == EligibleEntries(entries[..i], isFile)
      {
        var entry := entries[i];
        assert entries[..i + 1] == entries[..i] + [entry];
        EligibleSnoc(entries[..i], entry, isFile);
        var ext := Ext(entry);
        if entry in isFile && ext in Allowed {
          files := files + [entry];
        }
      }
      assert entries[..|entries|] == entries;
    }
    ghost var unsorted := files;
    files := Sort(files);
    ListingFacts(listing, isFile, unsorted, files);
  }

  /** The sorted copy of the eligible entries has the promised members. */
  lemma ListingFacts(listing: Option<seq<string>>, isFile: set<string>, unsorted: seq<string>, files: seq<string>)
    requires listing.None? ==> unsorted == []
    requires listing.Some? ==> unsorted == EligibleEntries(listing.value, isFile)
    requires multiset(files) == multiset(unsorted)
    ensures listing.None? ==> files == []
    ensures forall f :: f in files <==> listing.Some? && f in listing.value && Eligible(f, isFile)
  {
    SameMembers(files, unsorted);
    if listing.Some? {
      EligibleEntriesKept(listing.value, isFile);
    }
    if listing.None? {
      assert |multiset(files)| == 0;
    }
  }

  /** One more entry is kept exactly when it is eligible. */
  lemma EligibleSnoc(init: seq<string>, last: string, isFile: set<string>)
    ensures EligibleEntries(init + [last], isFile) == EligibleEntries(init, isFile) + (if Eligible(last, isFile) then [last] else [])
  {
    assert (init + [last])[..|init|] == init;
  }

  /** Lists with the same multiset have the same members. */
  lemma SameMembers(a: seq<string>, b: seq<string>)
    requires multiset(a) == multiset(b)
    ensures forall f :: f in a <==> f in b
  {
    forall f ensures f in a <==> f in b {
      assert f in a <==> f in multiset(a);
      assert f in b <==> f in multiset(b);
    }
  }

  // ------------------------------------------------------------------
  // /logs/list grouping
  // ------------------------------------------------------------------

  /** The response of `/logs/list`. */
  datatype Grouping = Grouping(folders: map<string, seq<string>>, unsorted: seq<string>)

  /** `[f for f in names if f in files]`. */
  function KeepListed(names: seq<string>, files: seq<string>): (r: seq<string>)
    ensures |r| <= |names|
  {
    if names == [] then []
    else KeepListed(names[..|names| - 1], files) + (if names[|names| - 1] in files then [names[|names| - 1]] else [])
  }

  /** The filter keeps exactly the names that are listed files, each as often as the folder has it. */
  lemma {:induction false} KeepListedKept(names: seq<string>, files: seq<string>)
    ensures forall f :: f in KeepListed(names, files) <==> f in names && f in files
    ensures forall f :: multiset(KeepListed(names, files))[f] == if f in files then multiset(names)[f] else 0
  {
    if names != [] {
      var init := names[..|names| - 1];
      var last := names[|names| - 1];
      assert names == init + [last];
      KeepListedKept(init, files);
    }
  }

  /** `[f for f in files if f not in taken]`. */
  function NotAssigned(files: seq<string>, taken: set<string>): (r: seq<string>)
    ensures |r| <= |files|
  {
    if files == [] then []
    else NotAssigned(files[..|files| - 1], taken) + (if files[|files| - 1] in taken then [] else [files[|files| - 1]])
  }

  /** The filter keeps exactly the files not taken, each as often as the listing has it. */
  lemma {:induction false} NotAssignedKept(files: seq<string>, taken: set<string>)
    ensures forall f :: f in NotAssigned(files, taken) <==> f in files && f !in taken
    ensures forall f :: multiset(NotAssigned(files, taken))[f] == if f in taken then 0 else multiset(files)[f]
  {
    if files != [] {
      var init := files[..|files| - 1];
      var last := files[|files| - 1];
      assert files == init + [last];
      NotAssignedKept(init, taken);
    }
  }

  /** The filter runs left to right: filtering a concatenation filters each part, in order. */
  lemma {:induction false} KeepListedAppend(a: seq<string>, b: seq<string>, files: seq<string>)
    ensures KeepListed(a + b, files) == KeepListed(a, files) + KeepListed(b, files)
    decreases |b|
  {
    if b == [] {
      assert a + b == a;
    } else {
      var init := b[..|b| - 1];
      var last := b[|b| - 1];
      SplitLast(a, b);
      KeepListedAppend(a, init, files);
      KeepListedSnoc(a + init, last, files);
      KeepListedSnoc(init, last, files);
      Assoc(KeepListed(a, files), KeepListed(init, files), if last in files then [last] else []);
    }
  }

  lemma KeepListedSnoc(xs: seq<string>, x: string, files: seq<string>)
    ensures KeepListed(xs + [x], files) == KeepListed(xs, files) + (if x in files then [x] else [])
  {
    assert (xs + [x])[..|xs|] == xs;
  }

  /** The filter runs left to right: filtering a concatenation filters each part, in order. */
  lemma {:induction false} NotAssignedAppend(a: seq<string>, b: seq<string>, taken: set<string>)
    ensures NotAssigned(a + b, taken) == NotAssigned(a, taken) + NotAssigned(b, taken)
    decreases |b|
  {
    if b == [] {
      assert a + b == a;
    } else {
      var init := b[..|b| - 1];
      var last := b[|b| - 1];
      SplitLast(a, b);
      NotAssignedAppend(a, init, taken);
      NotAssignedSnoc(a + init, last, taken);
      NotAssignedSnoc(init, last, taken);
      Assoc(NotAssigned(a, taken), NotAssigned(init, taken), if last in taken then [] else [last]);
    }
  }

  lemma NotAssignedSnoc(xs: seq<string>, x: string, taken: set<string>)
    ensures NotAssigned(xs + [x], taken) == NotAssigned(xs, taken) + (if x in taken then [] else [x])
  {
    assert (xs + [x])[..|xs|] == xs;
  }

  /** A non-empty list is its front and its last element, also behind a prefix. */
  lemma SplitLast<T>(a: seq<T>, b: seq<T>)
    requires b != []
    ensures b == b[..|b| - 1] + [b[|b| - 1]]
    ensures a + b == (a + b[..|b| - 1]) + [b[|b| - 1]]
  {
  }

  lemma Assoc<T>(x: seq<T>, y: seq<T>, z: seq<T>)
    ensures (x + y) + z == x + (y + z)
  {
  }

  /** Filtering a sorted list leaves it sorted. */
  lemma {:induction false} NotAssignedSorted(files: seq<string>, taken: set<string>)
    requires Sorted(files)
    ensures Sorted(NotAssigned(files, taken))
  {
    if files != [] {
      var init := files[..|files| - 1];
      var last := files[|files| - 1];
      assert Sorted(init);
      NotAssignedSorted(init, taken);
      var r := NotAssigned(init, taken);
      NotAssignedKept(init, taken);
      if last !in taken {
        forall i | 0 <= i < |r| ensures LessEq(r[i], last) {
          assert r[i] in r;
          var k :| 0 <= k < |init| && init[k] == r[i];
          assert files[k] == init[k];
        }
        SnocHigher(r, last);
      }
    }
  }

  /** A name above every element of a sorted list can go at its end. */
  lemma SnocHigher(xs: seq<string>, y: string)
    requires Sorted(xs) && forall i :: 0 <= i < |xs| ==> LessEq(xs[i], y)
    ensures Sorted(xs + [y])
  {
    forall i, j | 0 <= i < j < |xs + [y]| ensures LessEq((xs + [y])[i], (xs + [y])[j]) {
      assert (xs + [y])[i] == xs[i];
      if j < |xs| { assert (xs + [y])[j] == xs[j]; }
    }
  }

  /** Every name held by some folder. */
  function Assigned(folders: map<string, seq<string>>): (a: set<string>)
    ensures forall f :: f in a <==> exists k :: k in folders && f in folders[k]
  {
    set k, f | k in folders && f in folders[k] :: f
  }

  /** `logs_list()`: prune folder entries to listed files, then list the files no folder holds. */
  function LogsList(files: seq<string>, folders: map<string, seq<string>>): (g: Grouping)
    ensures g.folders.Keys == folders.Keys
    ensures forall k :: k in g.folders ==> |g.folders[k]| <= |folders[k]|
    ensures |g.unsorted| <= |files|
  {
    var pruned := map k | k in folders :: KeepListed(folders[k], files);
    Grouping(pruned, NotAssigned(files, Assigned(pruned)))
  }

  /** After pruning, every folder keeps exactly its listed files, in its own order. */
  lemma PrunedFoldersListed(files: seq<string>, folders: map<string, seq<string>>)
    ensures var g := LogsList(files, folders);
      g.folders.Keys == folders.Keys &&
      forall k, f :: k in g.folders ==> (f in g.folders[k] <==> f in folders[k] && f in files)
  {
    forall k | k in folders {
      KeepListedKept(folders[k], files);
    }
  }

  /** A listed file is unsorted exactly when no folder names it (order: NotAssignedAppend; multiplicity: NotAssignedKept). */
  lemma UnsortedAreUnassigned(files: seq<string>, folders: map<string, seq<string>>)
    ensures var g := LogsList(files, folders);
      forall f :: f in g.unsorted <==> f in files && forall k :: k in folders ==> f !in folders[k]
    ensures var g := LogsList(files, folders);
      forall f :: f in files ==> f in g.unsorted || exists k :: k in g.folders && f in g.folders[k]
  {
    var g := LogsList(files, folders);
    PrunedFoldersListed(files, folders);
    NotAssignedKept(files, Assigned(g.folders));
    forall f | f in files && f !in g.unsorted
      ensures exists k :: k in g.folders && f in g.folders[k]
    {
      assert f in Assigned(g.folders);
    }
    forall f ensures f in g.unsorted <==> f in files && forall k :: k in folders ==> f !in folders[k]
    {
      if f in files && f !in g.unsorted {
        var k :| k in g.folders && f in g.folders[k];
        assert f in folders[k];
      }
      if f in g.unsorted {
        forall k | k in folders ensures f !in folders[k] {
          assert k in g.folders;
          assert f !in g.folders[k];
        }
      }
    }
  }

  /** With the sorted listing `list_log_files` returns, `unsorted` comes out sorted too. */
  lemma UnsortedStaysSorted(files: seq<string>, folders: map<string, seq<string>>)
    requires Sorted(files)
    ensures Sorted(LogsList(files, folders).unsorted)
  {
    var pruned := LogsList(files, folders).folders;
    NotAssignedSorted(files, Assigned(pruned));
  }
}

=== FILE: paths.dfy ===
/**
 * POSIX path helpers as the server uses them: `os.path.basename`, `os.path.splitext`
 * and the file-name check `_sanitize_filename`.
 */
module Paths {
  import opened Wrappers

  /** Extensions a log file may have (`ALLOWED`): ".log" or none. */
  const Allowed: set<string> := {".log", ""}

  /** Index one past the last occurrence of `c` in `p`, or 0 when `c` does not occur (`p.rfind(c) + 1`). */
  function AfterLast(p: string, c: char): (i: nat)
    ensures i <= |p|
    ensures i > 0 ==> p[i - 1] == c
    ensures forall j :: i <= j < |p| ==> p[j] != c
  {
    if p == [] then 0
    else if p[|p| - 1] == c then |p|
    else AfterLast(p[..|p| - 1], c)
  }

  /** `AfterLast` is pinned down by the last occurrence. */
  lemma AfterLastIs(p: string, c: char, i: nat)
    requires i <= |p| && (i > 0 ==> p[i - 1] == c)
    requires forall j :: i <= j < |p| ==> p[j] != c
    requires i == 0 ==> c !in p
    ensures AfterLast(p, c) == i
  {
  }

  /** `os.path.basename(p)`: what follows the last "/". */
  function Basename(p: string): (b: string)
    ensures '/' !in b
    ensures |b| <= |p| && b == p[|p| - |b|..]
    ensures |b| < |p| ==> p[|p| - |b| - 1] == '/'
  {
    p[AfterLast(p, '/')..]
  }

  /** A path is its own basename exactly when it contains no "/". */
  lemma BasenameIsSelf(p: string)
    ensures Basename(p) == p <==> '/' !in p
  {
  }

  /**
   * The extension `os.path.splitext(p)` returns: from the last "." of the basename to the
   * end, unless everything in the basename before that "." is a dot too (".bashrc", "..");
   * otherwise "".
   */
  function Ext(p: string): (e: string)
    ensures e == [] || (e[0] == '.' && '.' !in e[1..] && '/' !in e && |e| <= |p| && e == p[|p| - |e|..])
    ensures e != [] <==> exists i, j :: AfterLast(p, '/') <= j < i < |p| && p[i] == '.' && p[j] != '.'
  {
    var base := AfterLast(p, '/');
    var dot := AfterLast(p, '.');
    ExtCondition(p, base, dot);
    if dot > base + 1 && exists j :: base <= j < dot - 1 && p[j] != '.' then
      var e := p[dot - 1..];
      assert forall j :: 1 <= j < |e| ==> e[j] == p[dot - 1 + j];
      e
    else []
  }

  /**
   * With `dot` one past the last "." of `p`, `splitext`'s test succeeds exactly when the part
   * after `base` has a "." with a character other than "." before it: the leading dots of a
   * name belong to its root.
   */
  lemma ExtCondition(p: string, base: nat, dot: nat)
    requires dot <= |p| && (dot > 0 ==> p[dot - 1] == '.')
    requires forall k :: dot <= k < |p| ==> p[k] != '.'
    ensures (dot > base + 1 && exists j :: base <= j < dot - 1 && p[j] != '.')
      <==> exists i, j :: base <= j < i < |p| && p[i] == '.' && p[j] != '.'
  {
    if exists i, j :: base <= j < i < |p| && p[i] == '.' && p[j] != '.' {
      var i, j :| base <= j < i < |p| && p[i] == '.' && p[j] != '.';
      assert i < dot;
      assert base <= j < dot - 1 && p[j] != '.';
    }
    if dot > base + 1 && exists j :: base <= j < dot - 1 && p[j] != '.' {
      var j :| base <= j < dot - 1 && p[j] != '.';
      assert base <= j < dot - 1 < |p| && p[dot - 1] == '.';
    }
  }

  /** `_sanitize_filename(fname)`: the name itself when it is a bare file name with an allowed extension, else `None`. */
  function Sanitize(fname: string): (r: Option<string>)
    ensures r.Some? ==> r.value == fname
    ensures r.Some? <==> '/' !in fname && Ext(fname) in Allowed
  {
    BasenameIsSelf(fname);
    if Basename(fname) != fname then None
    else if Ext(fname) !in Allowed then None
    else Some(fname)
  }

  /** Applying the check to a name it accepted accepts it again, unchanged. */
  lemma SanitizeIdempotent(fname: string)
    requires Sanitize(fname).Some?
    ensures Sanitize(Sanitize(fname).value) == Sanitize(fname)
  {
  }

  /** An accepted name ends in ".log" or has no extension at all. */
  lemma AcceptedNameShape(fname: string)
    requires Sanitize(fname).Some?
    ensures '/' !in fname
    ensures Ext(fname) == ".log" || Ext(fname) == ""
  {
    AllowedIs(Ext(fname));
  }

  lemma AllowedIs(e: string)
    requires e in Allowed
    ensures e == ".log" || e == ""
  {
  }

  /** A plain log name passes. */
  lemma PlainLogAccepted()
    ensures Sanitize("app.log") == Some("app.log")
  {
    assert AfterLast("app.log", '/') == 0;
    AfterLastIs("app.log", '.', 4);
    assert "app.log"[0] != '.';
    assert "app.log"[4 - 1..] == ".log";
  }

  /** A rotated log ("app.log.1") has extension ".1" and is refused. */
  lemma RotatedLogRefused()
    ensures Sanitize("app.log.1") == None
  {
    assert AfterLast("app.log.1", '/') == 0;
    AfterLastIs("app.log.1", '.', 8);
    assert "app.log.1"[0] != '.';
    assert "app.log.1"[8 - 1..] == ".1";
  }

  /** A name with a directory part is refused. */
  lemma NestedNameRefused()
    ensures Sanitize("nginx/access.log") == None
  {
    assert "nginx/access.log"[5] == '/';
  }

  /** A dot-only name has no extension, so ".." passes the check. */
  lemma DotsAccepted()
    ensures Sanitize("..") == Some("..")
  {
    assert AfterLast("..", '/') == 0;
    assert AfterLast("..", '.') == 2;
  }
}

=== FILE: registry.dfy ===
/**
 * The streaming state shared by the Socket.IO handlers and the tail threads, as a
 * sequential state machine: every `with thread_lock:` block is one atomic step, and
 * every stretch of a tail thread between two of them (opening the file, one `readline`
 * and its emission) is one more step. Which step runs next is left open, as the
 * scheduler leaves it open.
 *
 * `threads` is `tail_threads`: room -> the record installed for it. Records are the
 * dictionaries `{"thread", "stop", "file"}`; record `i` is created together with
 * thread `i` (its "thread" entry), so both share the index `i`. Nothing else in the
 * state is an addition: there is no generation counter and no subscriber count.
 */
module Registry {
  import opened Wrappers
  import opened Events
  import opened Tail
  import Snapshot

  /** Where a tail thread stands in `tail_file_background`. */
  datatype Phase =
    | Starting  // created by `on_join`, file not yet opened
    | Checking  // at the top of the `while True` loop, about to take the lock
    | Reading   // passed the check, about to `readline`
    | Exiting   // left the loop (stop seen or open failed), about to run the `finally` block
    | Finished  // thread has ended

  /** The "stop" entry of a `tail_threads` record (its "file" is its thread's room). */
  datatype Record = Record(stop: bool)

  /**
   * A tail thread for `room`: its place in the loop, the offset it started at (end of
   * file when opened), its read cursor, and the lines it has emitted so far.
   */
  datatype Worker = Worker(room: string, phase: Phase, start: nat, pos: nat, sent: seq<string>)

  /** The log directory's files, `tail_threads`, all records and threads created, and every event emitted. */
  datatype Sys = Sys(
    files: map<string, string>,
    threads: map<string, nat>,
    records: seq<Record>,
    workers: seq<Worker>,
    out: seq<Event>)

  /** Server start: empty `tail_threads`, nothing emitted. */
  function Init(files: map<string, string>): (s: Sys)
    ensures Valid(s) && Owned(s)
  {
    Sys(files, map[], [], [], [])
  }

  predicate Live(p: Phase)
  {
    p == Starting || p == Checking || p == Reading
  }

  /** A thread's cursor is within its file and what it emitted is exactly the file between its start and its cursor. */
  ghost predicate CursorOk(files: map<string, string>, w: Worker)
  {
    && (w.phase == Starting ==> w.sent == [])
    && (w.phase == Checking || w.phase == Reading ==> w.room in files)
    && (w.room in files ==> w.start <= w.pos <= |files[w.room]| && Concat(w.sent) == files[w.room][w.start..w.pos])
    && (w.room !in files ==> w.start == 0 && w.pos == 0 && w.sent == [])
  }

  /** Every record belongs to one thread, every room's record to a thread of that room, every cursor is consistent. */
  ghost predicate Valid(s: Sys)
  {
    && |s.records| == |s.workers|
    && (forall room :: room in s.threads ==> s.threads[room] < |s.workers| && s.workers[s.threads[room]].room == room)
    && (forall i :: 0 <= i < |s.workers| ==> CursorOk(s.files, s.workers[i]))
  }

  /**
   * The intended ownership rule: a live thread whose record has not been stopped is the
   * one whose record `tail_threads` holds for its room.
   */
  ghost predicate Owned(s: Sys)
    requires Valid(s)
  {
    forall i :: 0 <= i < |s.workers| && Live(s.workers[i].phase) && !s.records[i].stop ==>
      s.workers[i].room in s.threads && s.threads[s.workers[i].room] == i
  }

  /** The as-written loop condition of a thread tailing `room`: a record is stored for the room and it is not stopped. */
  predicate RoomRunning(s: Sys, room: string): (r: bool)
    requires Valid(s)
    ensures r ==> room in s.threads && s.threads[room] < |s.workers| && s.workers[s.threads[room]].room == room
  {
    room in s.threads && !s.records[s.threads[room]].stop
  }

  /** Replacing one thread by a consistent thread of the same room keeps the invariant. */
  lemma UpdateWorkerValid(s: Sys, w: nat, wk: Worker)
    requires Valid(s) && w < |s.workers| && wk.room == s.workers[w].room && CursorOk(s.files, wk)
    ensures Valid(s.(workers := s.workers[w := wk]))
  {
    var r := s.(workers := s.workers[w := wk]);
    forall i | 0 <= i < |r.workers| ensures CursorOk(r.files, r.workers[i]) {
      if i != w { assert r.workers[i] == s.workers[i]; }
    }
  }

  /** Installing a fresh thread for `room`, with any record flags, keeps the invariant. */
  lemma AddWorkerValid(s: Sys, room: string, records: seq<Record>, out: seq<Event>)
    requires Valid(s) && |records| == |s.records|
    ensures Valid(Sys(s.files, s.threads[room := |s.workers|], records + [Record(false)],
                      s.workers + [Worker(room, Starting, 0, 0, [])], out))
  {
    var workers := s.workers + [Worker(room, Starting, 0, 0, [])];
    forall i | 0 <= i < |workers| ensures CursorOk(s.files, workers[i]) {
      if i < |s.workers| { assert workers[i] == s.workers[i]; }
    }
    var threads := s.threads[room := |s.workers|];
    forall r | r in threads
      ensures threads[r] < |workers| && workers[threads[r]].room == r
    {
      if r != room { assert workers[s.threads[r]] == s.workers[s.threads[r]]; }
    }
  }

  /** Dropping entries of `tail_threads` keeps the invariant. */
  lemma DropThreadsValid(s: Sys, threads: map<string, nat>)
    requires Valid(s)
    requires forall room :: room in threads ==> room in s.threads && threads[room] == s.threads[room]
    ensures Valid(s.(threads := threads))
  {
  }

  // ------------------------------------------------------------------
  // Steps
  // ------------------------------------------------------------------

  /**
   * `on_join`: acknowledge, send the backlog to the room, then under the lock mark the
   * room's current record stopped and install a fresh record with a new thread.
   */
  function OnJoin(s: Sys, file: string): (r: Sys)
    requires Valid(s)
    ensures Valid(r)
    ensures file == "" ==> r == s
    ensures file != "" ==>
      && r.files == s.files
      && r.out == s.out + [Joined(file)] + Snapshot.SnapshotEvents(file, Get(s.files, file), Snapshot.BacklogLines)
      && |r.workers| == |s.workers| + 1 && r.workers[..|s.workers|] == s.workers
      && r.workers[|s.workers|].room == file && r.workers[|s.workers|].phase == Starting
      && file in r.threads && r.threads[file] == |s.workers| && !r.records[|s.workers|].stop
      && (file in s.threads ==> r.records[s.threads[file]].stop)
      && (forall i :: 0 <= i < |s.records| && !(file in s.threads && i == s.threads[file]) ==> r.records[i] == s.records[i])
      && (forall room :: room != file ==> (room in r.threads <==> room in s.threads))
      && (forall room :: room != file && room in s.threads ==> r.threads[room] == s.threads[room])
  {
    if file == "" then s
    else
      var id := |s.workers|;
      var records := if file in s.threads then s.records[s.threads[file] := Record(true)] else s.records;
      AddWorkerValid(s, file, records, s.out + [Joined(file)] + Snapshot.SnapshotEvents(file, Get(s.files, file), Snapshot.BacklogLines));
      Sys(s.files,
          s.threads[file := id],
          records + [Record(false)],
          s.workers + [Worker(file, Starting, 0, 0, [])],
          s.out + [Joined(file)] + Snapshot.SnapshotEvents(file, Get(s.files, file), Snapshot.BacklogLines))
  }

  /** `on_leave`: under the lock, mark the room's current record stopped, if there is one. */
  function OnLeave(s: Sys, file: string): (r: Sys)
    requires Valid(s)
    ensures Valid(r)
    ensures r.files == s.files && r.threads == s.threads && r.workers == s.workers && r.out == s.out
    ensures |r.records| == |s.records|
    ensures file != "" && file in s.threads ==> r.records[s.threads[file]].stop
    ensures forall i :: 0 <= i < |s.records| && !(file != "" && file in s.threads && i == s.threads[file]) ==>
      r.records[i] == s.records[i]
  {
    if file != "" && file in s.threads then s.(records := s.records[s.threads[file] := Record(true)]) else s
  }

  /** A thread opens its file and seeks to its end; a missing file raises, which emits `log_error`. */
  function WorkerOpen(s: Sys, w: nat): (r: Sys)
    requires Valid(s) && w < |s.workers| && s.workers[w].phase == Starting
    ensures Valid(r)
    ensures r.files == s.files && r.threads == s.threads && r.records == s.records
    ensures |r.workers| == |s.workers| && forall i :: 0 <= i < |s.workers| && i != w ==> r.workers[i] == s.workers[i]
    ensures var wk := s.workers[w]; wk.room in s.files ==>
      r.workers[w] == wk.(phase := Checking, start := |s.files[wk.room]|, pos := |s.files[wk.room]|) && r.out == s.out
    ensures var wk := s.workers[w]; wk.room !in s.files ==>
      r.workers[w].phase == Exiting && r.out == s.out + [LogError(wk.room, NoSuchFile)]
  {
    var wk := s.workers[w];
    if wk.room in s.files then
      var size := |s.files[wk.room]|;
      UpdateWorkerValid(s, w, wk.(phase := Checking, start := size, pos := size));
      s.(workers := s.workers[w := wk.(phase := Checking, start := size, pos := size)])
    else
      UpdateWorkerValid(s, w, wk.(phase := Exiting));
      s.(workers := s.workers[w := wk.(phase := Exiting)], out := s.out + [LogError(wk.room, NoSuchFile)])
  }

  /**
   * The check at the top of the loop, as written: look the record up BY ROOM and go on
   * unless it is missing or stopped. The thread's own record is never consulted.
   */
  function WorkerCheck(s: Sys, w: nat): (r: Sys)
    requires Valid(s) && w < |s.workers| && s.workers[w].phase == Checking
    ensures Valid(r)
    ensures r.files == s.files && r.threads == s.threads && r.records == s.records && r.out == s.out
    ensures |r.workers| == |s.workers| && forall i :: 0 <= i < |s.workers| && i != w ==> r.workers[i] == s.workers[i]
    ensures r.workers[w].phase == Reading || r.workers[w].phase == Exiting
    ensures r.workers[w].phase == Reading <==> RoomRunning(s, s.workers[w].room)
    ensures r.workers[w] == s.workers[w].(phase := r.workers[w].phase)
  {
    var wk := s.workers[w];
    var next := if RoomRunning(s, wk.room) then Reading else Exiting;
    UpdateWorkerValid(s, w, wk.(phase := next));
    s.(workers := s.workers[w := wk.(phase := next)])
  }

  /** One `readline`: a non-empty result is emitted to the room and moves the cursor; an empty one means sleep. */
  function WorkerRead(s: Sys, w: nat): (r: Sys)
    requires Valid(s) && w < |s.workers| && s.workers[w].phase == Reading
    ensures Valid(r)
    ensures r.files == s.files && r.threads == s.threads && r.records == s.records
    ensures |r.workers| == |s.workers| && forall i :: 0 <= i < |s.workers| && i != w ==> r.workers[i] == s.workers[i]
    ensures var wk := s.workers[w]; var line := ReadLine(s.files[wk.room], wk.pos);
      && r.workers[w] == wk.(phase := Checking, pos := wk.pos + |line|, sent := r.workers[w].sent)
      && r.workers[w].sent == (if line == [] then wk.sent else wk.sent + [line])
      && r.out == (if line == [] then s.out else s.out + [LogLine(wk.room, line)])
  {
    var wk := s.workers[w];
    var text := s.files[wk.room];
    var line := ReadLine(text, wk.pos);
    if line == [] then
      UpdateWorkerValid(s, w, wk.(phase := Checking));
      s.(workers := s.workers[w := wk.(phase := Checking)])
    else
      ReadExtends(text, wk.start, wk.pos, wk.sent);
      UpdateWorkerValid(s, w, wk.(phase := Checking, pos := wk.pos + |line|, sent := wk.sent + [line]));
      s.(workers := s.workers[w := wk.(phase := Checking, pos := wk.pos + |line|, sent := wk.sent + [line])],
         out := s.out + [LogLine(wk.room, line)])
  }

  /** The `finally` block, as written: pop the room's entry, whichever thread installed it. */
  function WorkerCleanup(s: Sys, w: nat): (r: Sys)
    requires Valid(s) && w < |s.workers| && s.workers[w].phase == Exiting
    ensures Valid(r)
    ensures r.files == s.files && r.records == s.records && r.out == s.out
    ensures r.threads.Keys == s.threads.Keys - {s.workers[w].room}
    ensures forall room :: room in r.threads ==> r.threads[room] == s.threads[room]
    ensures |r.workers| == |s.workers| && forall i :: 0 <= i < |s.workers| && i != w ==> r.workers[i] == s.workers[i]
    ensures r.workers[w] == s.workers[w].(phase := Finished)
  {
    var wk := s.workers[w];
    UpdateWorkerValid(s, w, wk.(phase := Finished));
    DropThreadsValid(s.(workers := s.workers[w := wk.(phase := Finished)]), s.threads - {wk.room});
    s.(threads := s.threads - {wk.room}, workers := s.workers[w := wk.(phase := Finished)])
  }

  /** Another process appends `more` to the log file `name` (creating it if absent). */
  function Append(s: Sys, name: string, more: string): (r: Sys)
    requires Valid(s)
    ensures Valid(r)
    ensures r == s.(files := r.files)
    ensures r.files.Keys == s.files.Keys + {name}
    ensures forall f :: f in s.files && f != name ==> r.files[f] == s.files[f]
    ensures name in s.files ==> r.files[name] == s.files[name] + more
    ensures name !in s.files ==> r.files[name] == more
  {
    var before := if name in s.files then s.files[name] else [];
    var r := s.(files := s.files[name := before + more]);
    forall i | 0 <= i < |s.workers| ensures CursorOk(r.files, s.workers[i]) {
      var wk := s.workers[i];
      if wk.room == name && name in s.files {
        AppendKeepsRead(before, more, wk.start, wk.pos);
      }
    }
    r
  }
}

=== FILE: server.dfy ===
/**
 * The module-level state of the server as an object: `tail_threads` and the records it
 * holds, the tail threads started so far, the log files they read and the events emitted.
 * Each method is one atomic step of `Registry`, written the way the handlers and the
 * thread body perform it, and is proved to produce exactly that step's new state.
 */
module Server {
  import opened Wrappers
  import opened Events
  import opened Tail
  import opened Registry
  import Snapshot

  class LogServer {
    var files: map<string, string>
    var threads: map<string, nat>
    var records: seq<Record>
    var workers: seq<Worker>
    var out: seq<Event>

    /** The abstract state. */
    function State(): Sys
      reads this
    {
      Sys(files, threads, records, workers, out)
    }

    ghost predicate Valid()
      reads this
    {
      Registry.Valid(State())
    }

    /** Server start over the log directory `logs`. */
    constructor (logs: map<string, string>)
      ensures Valid() && State() == Init(logs)
    {
      files := logs;
      threads := map[];
      records := [];
      workers := [];
      out := [];
    }

    /** `on_join(data)` with `data["file"] == file` ("" when absent). */
    method OnJoin(file: string)
      requires Valid()
      modifies this
      ensures Valid() && State() == Registry.OnJoin(old(State()), file)
    {
      if file == "" {
        return;
      }
      ghost var s := State();
      ghost var r := Registry.OnJoin(s, file);
      out := out + [Joined(file)];
      var backlog := Snapshot.SendLastLines(file, Get(files, file), Snapshot.BacklogLines);
      out := out + backlog;
      // with thread_lock:
      var info := Get(threads, file);
      if info.Some? {
        records := records[info.value := Record(true)];
      }
      var id := |workers|;
      threads := threads[file := id];
      records := records + [Record(false)];
      workers := workers + [Worker(file, Starting, 0, 0, [])];
      assert out == r.out && records == r.records;
      assert State() == r;
    }

    /** `on_leave(data)` with `data["file"] == file`. */
    method OnLeave(file: string)
      requires Valid()
      modifies this
      ensures Valid() && State() == Registry.OnLeave(old(State()), file)
    {
      if file == "" {
        return;
      }
      // with thread_lock:
      var info := Get(threads, file);
      if info.Some? {
        records := records[info.value := Record(true)];
      }
    }

    /** Thread `w` opens its file and seeks to the end. */
    method WorkerOpen(w: nat)
      requires Valid() && w < |workers| && workers[w].phase == Starting
      modifies this
      ensures Valid() && State() == Registry.WorkerOpen(old(State()), w)
    {
      var wk := workers[w];
      if wk.room !in files {
        out := out + [LogError(wk.room, NoSuchFile)];
        workers := workers[w := wk.(phase := Exiting)];
        return;
      }
      var size := |files[wk.room]|;
      workers := workers[w := wk.(phase := Checking, start := size, pos := size)];
    }

    /** The locked check at the top of thread `w`'s loop; `running` is false when it breaks out. */
    method WorkerCheck(w: nat) returns (running: bool)
      requires Valid() && w < |workers| && workers[w].phase == Checking
      modifies this
      ensures Valid() && State() == Registry.WorkerCheck(old(State()), w)
      ensures running <==> RoomRunning(old(State()), old(workers[w].room))
    {
      ghost var r := Registry.WorkerCheck(State(), w);
      var wk := workers[w];
      var info := Get(threads, wk.room);
      if info.None? || records[info.value].stop {
        workers := workers[w := wk.(phase := Exiting)];
        assert State() == r;
        return false;
      }
      workers := workers[w := wk.(phase := Reading)];
      assert State() == r;
      return true;
    }

    /** One `readline` of thread `w`, emitted when non-empty. */
    method WorkerRead(w: nat) returns (line: string)
      requires Valid() && w < |workers| && workers[w].phase == Reading
      modifies this
      ensures Valid() && State() == Registry.WorkerRead(old(State()), w)
      ensures line == ReadLine(old(files)[old(workers[w].room)], old(workers[w].pos))
    {
      ghost var r := Registry.WorkerRead(State(), w);
      var wk := workers[w];
      line := ReadLine(files[wk.room], wk.pos);
      if line == [] {
        // time.sleep(0.2); continue
        workers := workers[w := wk.(phase := Checking)];
        assert State() == r;
        return;
      }
      out := out + [LogLine(wk.room, line)];
      workers := workers[w := wk.(phase := Checking, pos := wk.pos + |line|, sent := wk.sent + [line])];
      assert State() == r;
    }

    /** The `finally` block of thread `w`. */
    method WorkerCleanup(w: nat)
      requires Valid() && w < |workers| && workers[w].phase == Exiting
      modifies this
      ensures Valid() && State() == Registry.WorkerCleanup(old(State()), w)
    {
      ghost var r := Registry.WorkerCleanup(State(), w);
      var wk := workers[w];
      // with thread_lock:
      if wk.room in threads {
        threads := threads - {wk.room};
      }
      workers := workers[w := wk.(phase := Finished)];
      assert State() == r;
    }

    /** Another process appends `more` to log file `name`. */
    method Append(name: string, more: string)
      requires Valid()
      modifies this
      ensures Valid() && State() == Registry.Append(old(State()), name, more)
    {
      var before := if name in files then files[name] else [];
      files := files[name := before + more];
    }
  }
}

=== FILE: snapshot.dfy ===
/**
 * The backlog sent to a room when a viewer joins (`send_last_lines`): the file is
 * scanned backwards in windows that grow by a fixed block until the window holds
 * more than `n` lines or reaches the start of the file, and the last `n` lines of
 * that window are emitted, each with a "\n" appended.
 */
module Snapshot {
  import opened Wrappers
  import opened Lines
  import opened Events

  /** Step by which the scan moves its start offset backwards. */
  const Block: nat := 4096
  /** Lines of backlog `on_join` asks for. */
  const BacklogLines: nat := 200

  /** Python's slice `xs[-n:]`: `n == 0` is `xs[0:]`, the whole list. */
  function LastSlice<T>(xs: seq<T>, n: nat): (r: seq<T>)
    ensures n == 0 || n >= |xs| ==> r == xs
    ensures 0 < n < |xs| ==> |r| == n && r == xs[|xs| - n..]
  {
    if n == 0 || n >= |xs| then xs else xs[|xs| - n..]
  }

  /** Start offset of the first window the scan reads: one block before the end, or 0. */
  function FirstWindow(size: nat): (k: nat)
    ensures k <= size && (size > 0 ==> k < size)
  {
    if size >= Block then size - Block else 0
  }

  /**
   * What the scan yields for a file holding `text`: for `n >= 1` the last `min(n, total)` lines
   * of the whole file; for `n == 0` every line of the first window, the first of them possibly cut.
   */
  function Backlog(text: string, n: nat): (lines: seq<string>)
    ensures n > 0 ==> |lines| <= n
    ensures lines == [] <==> text == []
  {
    if n == 0 then SplitLines(text[FirstWindow(|text|)..])
    else LastSlice(SplitLines(text), n)
  }

  /** The events the scan emits: one `log_line` per backlog line, with "\n" appended. */
  function LineEvents(file: string, lines: seq<string>): (evs: seq<Event>)
    ensures |evs| == |lines|
    ensures forall i :: 0 <= i < |lines| ==> evs[i] == LogLine(file, lines[i] + "\n")
  {
    if lines == [] then [] else LineEvents(file, lines[..|lines| - 1]) + [LogLine(file, lines[|lines| - 1] + "\n")]
  }

  /** Everything `send_last_lines` emits for a file that can (`Some`) or cannot (`None`) be opened. */
  function SnapshotEvents(file: string, contents: Option<string>, n: nat): (evs: seq<Event>)
    ensures forall i :: 0 <= i < |evs| ==> evs[i].file == file
    ensures evs == [] <==> contents == Some("")
  {
    match contents
    case None => [LogError(file, NoSuchFile)]
    case Some(text) => LineEvents(file, Backlog(text, n))
  }

  /** `send_last_lines(filename, room, n)` reading the file `contents`. */
  method SendLastLines(file: string, contents: Option<string>, n: nat) returns (events: seq<Event>)
    ensures events == SnapshotEvents(file, contents, n)
  {
    if contents.None? {
      return [LogError(file, NoSuchFile)];
    }
    var text := contents.value;
    var size: nat := |text|;
    var data := "";
    while |SplitLines(data)| <= n && size > 0
      invariant size <= |text| && data == text[size..]
      invariant n == 0 ==> size == |text| || size == FirstWindow(|text|)
      decreases size
    {
      size := if size >= Block then size - Block else 0;
      data := text[size..];
    }
    var lines := LastSlice(SplitLines(data), n);
    BacklogOfWindow(text, size, n);
    events := [];
    for i := 0 to |lines|
      invariant events == LineEvents(file, lines[..i])
    {
      assert lines[..i + 1][..i] == lines[..i];
      events := events + [LogLine(file, lines[i] + "\n")];
    }
    assert lines[..|lines|] == lines;
  }

  /** Where the scan stops, the slice of the window it keeps is the backlog. */
  lemma BacklogOfWindow(text: string, size: nat, n: nat)
    requires size <= |text|
    requires |SplitLines(text[size..])| > n || size == 0
    requires n == 0 ==> size == |text| || size == FirstWindow(|text|)
    ensures LastSlice(SplitLines(text[size..]), n) == Backlog(text, n)
  {
    if n == 0 {
      StopsAtFirstWindow(text, size);
    } else if |SplitLines(text[size..])| > n {
      LongWindow(text, size, n);
    } else {
      WholeFileWindow(text, n);
    }
  }

  /** A window holding more than `n >= 1` lines keeps `[-n:]` of all the file's lines. */
  lemma LongWindow(text: string, size: nat, n: nat)
    requires size <= |text| && 1 <= n < |SplitLines(text[size..])|
    ensures LastSlice(SplitLines(text[size..]), n) == Backlog(text, n)
  {
    WindowLastLines(text, size, n);
    SameLastSlice(SplitLines(text[size..]), SplitLines(text), n);
  }

  /** A scan that reached the start of the file keeps `[-n:]` of all its lines. */
  lemma WholeFileWindow(text: string, n: nat)
    requires n >= 1
    ensures LastSlice(SplitLines(text[0..]), n) == Backlog(text, n)
  {
    assert text[0..] == text;
  }

  /** With `n == 0` the scan stops at the first window: a file is empty when the window at its end is. */
  lemma StopsAtFirstWindow(text: string, size: nat)
    requires size <= |text|
    requires |SplitLines(text[size..])| > 0 || size == 0
    requires size == |text| || size == FirstWindow(|text|)
    ensures size == FirstWindow(|text|)
  {
    if size == |text| {
      assert text[size..] == [];
    }
  }

  /** Lists that agree on their last `n` elements have the same `[-n:]`, when the first is longer. */
  lemma SameLastSlice<T>(w: seq<T>, l: seq<T>, n: nat)
    requires 1 <= n < |w| && n <= |l| && w[|w| - n..] == l[|l| - n..]
    ensures LastSlice(w, n) == LastSlice(l, n)
  {
    if n == |l| {
      assert l[|l| - n..] == l;
    }
  }

  /** For `n >= 1` the backlog holds `min(n, total)` lines and they are the file's last lines, in order. */
  lemma BacklogIsLastLines(text: string, n: nat)
    requires n >= 1
    ensures var all := SplitLines(text); var b := Backlog(text, n);
      |b| == if n < |all| then n else |all|
    ensures var all := SplitLines(text); var b := Backlog(text, n);
      forall i :: 0 <= i < |b| ==> b[i] == all[|all| - |b| + i]
  {
    var all := SplitLines(text);
    var b := Backlog(text, n);
    if n < |all| {
      assert b == all[|all| - n..];
      assert forall i :: 0 <= i < |b| ==> b[i] == all[|all| - n + i];
    } else {
      assert b == all;
    }
  }

  /** A file of at most `n >= 1` lines ending in "\n" is reproduced exactly by the emitted backlog. */
  lemma ShortFileIsReproduced(text: string, n: nat)
    requires n >= 1 && |SplitLines(text)| <= n
    requires text == [] || text[|text| - 1] == '\n'
    ensures JoinLines(Backlog(text, n)) == text
  {
    JoinSplit(text);
  }

  /** A file of at most `n` lines whose last line is unterminated comes back with one "\n" it does not have. */
  lemma ShortPartialFileGainsBreak(text: string, n: nat)
    requires n >= 1 && |SplitLines(text)| <= n
    requires text != [] && text[|text| - 1] != '\n'
    ensures JoinLines(Backlog(text, n)) == text + "\n"
  {
    JoinSplitPartial(text);
  }

  /** The texts of the emitted events, concatenated, are the backlog lines written out with their breaks. */
  lemma {:induction false} EventTextsJoin(file: string, lines: seq<string>)
    ensures Texts(LineEvents(file, lines)) == JoinLines(lines)
  {
    if lines != [] {
      EventTextsJoin(file, lines[1..]);
      LineEventsCons(file, lines);
    }
  }

  /** The `line` payloads of a sequence of events, concatenated (other events contribute nothing). */
  function Texts(evs: seq<Event>): string
  {
    if evs == [] then [] else (if evs[0].LogLine? then evs[0].line else []) + Texts(evs[1..])
  }

  lemma LineEventsCons(file: string, lines: seq<string>)
    requires lines != []
    ensures LineEvents(file, lines) == [LogLine(file, lines[0] + "\n")] + LineEvents(file, lines[1..])
  {
    var a := LineEvents(file, lines);
    var b := [LogLine(file, lines[0] + "\n")] + LineEvents(file, lines[1..]);
    assert |a| == |b|;
    forall i | 0 <= i < |a| ensures a[i] == b[i] {
      if i > 0 { assert lines[1..][i - 1] == lines[i]; }
    }
  }
}

=== FILE: tail.dfy ===
/**
 * The read cursor of a tail worker (`tail_file_background`): `readline` on a handle
 * positioned at `pos` of a file holding `text`. It returns the text from the cursor
 * through the next "\n", or the partial remainder at end of file; the remainder is
 * not held back until its "\n" arrives.
 */
module Tail {
  import opened Lines

  /** What `fh.readline()` returns with the handle at `pos`. */
  function ReadLine(text: string, pos: nat): (line: string)
    ensures pos >= |text| ==> line == []
    ensures pos < |text| ==> line != [] && pos + |line| <= |text| && line == text[pos..pos + |line|]
    ensures forall j :: 0 <= j < |line| - 1 ==> line[j] != '\n'
    ensures line != [] && line[|line| - 1] != '\n' ==> pos + |line| == |text|
  {
    if pos >= |text| then []
    else
      var rest := text[pos..];
      var i := NewlineIndex(rest);
      if i == |rest| then rest else rest[..i + 1]
  }

  /** Chunks written one after another. */
  function Concat(chunks: seq<string>): (s: string)
  {
    if chunks == [] then [] else Concat(chunks[..|chunks| - 1]) + chunks[|chunks| - 1]
  }

  /**
   * One more read keeps the emitted chunks equal to the text between the starting
   * offset and the cursor, and moves the cursor past exactly what it emitted.
   */
  lemma ReadExtends(text: string, start: nat, pos: nat, chunks: seq<string>)
    requires start <= pos <= |text| && Concat(chunks) == text[start..pos]
    ensures var line := ReadLine(text, pos);
      Concat(chunks + [line]) == text[start..pos + |line|]
  {
    var line := ReadLine(text, pos);
    assert (chunks + [line])[..|chunks|] == chunks;
    assert text[start..pos + |line|] == text[start..pos] + text[pos..pos + |line|];
  }

  /** Appending to the file does not disturb what was read from its old contents. */
  lemma AppendKeepsRead(text: string, more: string, start: nat, pos: nat)
    requires start <= pos <= |text|
    ensures (text + more)[start..pos] == text[start..pos]
  {
  }

  /** A line that was complete when read is read the same after more text is appended. */
  lemma CompleteLineStable(text: string, more: string, pos: nat)
    requires pos < |text|
    requires var line := ReadLine(text, pos); line[|line| - 1] == '\n'
    ensures ReadLine(text + more, pos) == ReadLine(text, pos)
  {
    var line := ReadLine(text, pos);
    var rest := text[pos..];
    var rest' := (text + more)[pos..];
    var i := NewlineIndex(rest);
    assert i < |rest|;
    assert rest'[..|rest|] == rest;
    NewlineIndexIs(rest', i);
  }

  /** The remainder of a line that is still being written is emitted now, and its end later as a separate chunk. */
  lemma PartialLineIsSplit()
    ensures ReadLine("abc", 0) == "abc"
    ensures ReadLine("abc" + "def\n", 3) == "def\n"
  {
    NewlineIndexIs("abc", 3);
    assert ("abc" + "def\n")[3..] == "def\n";
    NewlineIndexIs("def\n", 3);
  }
}

=== FILE: wrappers.dfy ===
/** Optional and success-or-error values, for Python's `None` results and raised errors. */
module Wrappers {

  /** Python's optional value: `None` or a present value. */
  datatype Option<+T> = None | Some(value: T)

  /** An operation that either succeeds with a value or raises with a message. */
  datatype Result<+T, +E> = Success(value: T) | Failure(error: E)

  /** `d.get(k)` on a dictionary. */
  function Get<K, V>(m: map<K, V>, k: K): (r: Option<V>)
    ensures r.Some? <==> k in m
    ensures r.Some? ==> r.value == m[k]
  {
    if k in m then Some(m[k]) else None
  }
}
